=== FILE: README.md ===
# Incident triage copilot: a Dafny model of the triage pipeline

This project models the deterministic core of the incident triage copilot. The copilot turns an
alert and optional logs into a triage result. First it classifies severity and category. Then it
analyses root causes, grounded on runbooks retrieved from a similarity index. Finally it writes a
mitigation plan that cites those runbooks, and renders that plan as Markdown.

Every step is a pure function over immutable datatypes. The text-generation backend, the JSON
decoder, the sentence-embedding model, the square root, runbook file reads and number formatting
are supplied by the caller as fields of `Oracles.Oracles`. Each stage is therefore modelled as
post-processing of the backend's reply. Exceptions the code lets escape become `Result.Err`.
Exceptions the code catches become its documented fallback values.

Modules, leaves first:

- `Wrappers`: `Option`, `Result` and the fault kinds.
- `Text`: substring search, split, join, strip, lower and section excerpts.
- `Lists`: slicing, counting, filtering and de-duplication.
- `Json`: decoded values, truthiness and `dict.get`.
- `Oracles`: the uninterpreted collaborators listed above.
- `Models`: `IncidentAlert`, `IncidentContext` and `TriageResult`, with their defaults and validation.
- `VectorStore`: the runbook table and its ranked cosine search.
- `RunbookStore`: re-indexing the runbook directory, title extraction and category inference.
- `Fences`: removing code fences from replies.
- `Classifier`, `RootCause`, `Mitigation`: the three stages.
- `Orchestrator`: sequencing, aggregation, plan rendering and the metrics call.
- `Evaluator`: golden-case scoring.

The runbook table is the sequence of its rows in rowid order, plus the next AUTOINCREMENT value.
`INSERT OR REPLACE` deletes the conflicting row and appends a row with a fresh rowid. Rowids
therefore increase along the rows. Python's stable descending sort then orders ties by ascending
rowid, which is table order.

## Model

| member | source | states |
|---|---|---|
| VectorStore.EmptyValid | incident-triage-copilot/src/storage/vector_store.py:33-43 | A new table satisfies the table invariants: rowids increase, stay below the next rowid, and `file_path` is unique |
| VectorStore.Upsert | incident-triage-copilot/src/storage/vector_store.py:75-78 | Replace-by-path keeps the invariants. The new row comes last, carries the given title, content and category and the content's embedding, and gets the next rowid. The rows before it are exactly the old rows with a different path |
| VectorStore.UpsertSinglePath | incident-triage-copilot/src/storage/vector_store.py:75-78 | After an upsert, every row with that path carries the new title, content and category |
| VectorStore.Delete | incident-triage-copilot/src/storage/vector_store.py:178-187 | Deleting removes exactly the rows with that path, keeps the invariants and keeps the AUTOINCREMENT counter. An absent path leaves the table unchanged |
| VectorStore.Clear | incident-triage-copilot/src/storage/vector_store.py:189-198 | Clearing leaves no rows and keeps the rowid counter |
| VectorStore.AllRunbooks | incident-triage-copilot/src/storage/vector_store.py:155-176 | The listing has one entry per row, in table order, with that row's id, title, path, content and category |
| VectorStore.Cosine | incident-triage-copilot/src/storage/vector_store.py:144-153 | The similarity is exactly 0 when either vector has zero magnitude (given a square root that maps 0 to 0) |
| VectorStore.DotSymmetric | incident-triage-copilot/src/storage/vector_store.py:146 | The zip-truncated dot product is symmetric in its arguments |
| VectorStore.CosineSymmetric | incident-triage-copilot/src/storage/vector_store.py:144-153 | Cosine similarity is symmetric in its two arguments |
| VectorStore.Candidates | incident-triage-copilot/src/storage/vector_store.py:103-113 | The candidates are exactly the stored rows passing the category filter. A missing or empty category filters nothing |
| VectorStore.Scored | incident-triage-copilot/src/storage/vector_store.py:115-132 | Each candidate yields one hit with its fields and its similarity to the query vector, in candidate order |
| VectorStore.SortDesc | incident-triage-copilot/src/storage/vector_store.py:137 | Sorting returns a permutation of the hits, ranked by descending similarity with ties in table order |
| Lists.Take | incident-triage-copilot/src/storage/vector_store.py:138 | A Python slice `[:k]` is a prefix of length min(k, n), and for negative k it drops -k items from the end |
| VectorStore.Search | incident-triage-copilot/src/storage/vector_store.py:88-138 | With `n` filtered rows there are exactly `min(top_k, n)` results for a non-negative `top_k`, and `max(0, n + top_k)` for a negative one, as Python's `[:top_k]` slice gives. Results are ranked. With a non-empty category every result has it. Every result is a stored row scored against the query |
| VectorStore.SearchIsTopK | incident-triage-copilot/src/storage/vector_store.py:136-138 | Every result is a scored candidate, and every candidate left out ranks after every result returned. A `top_k` at least the candidate count returns all candidates |
| VectorStore.SearchTopOne | incident-triage-copilot/src/storage/vector_store.py:136-138 | With `top_k=1` and at least one candidate there is exactly one result, and it ranks before every other candidate |
| VectorStore.SearchOrder | incident-triage-copilot/src/storage/vector_store.py:137 | Results have non-increasing similarity, and results with equal similarity appear in table order |
| VectorStore.ClearedIsEmpty | incident-triage-copilot/src/storage/vector_store.py:189-198 | After clearing, the listing and every search are empty |
| RunbookStore.FirstMatchFrom | incident-triage-copilot/src/storage/runbook_store.py:80-82 | The scan returns a category from the table rows it visits, or General. The result is General exactly when no visited row matches. A returned row matches, and no earlier row does |
| RunbookStore.Infer | incident-triage-copilot/src/storage/runbook_store.py:64-84 | The result is General exactly when no keyword occurs in the lower-cased file name or content. Otherwise it is the first matching table row |
| RunbookStore.InferCategory | incident-triage-copilot/src/storage/runbook_store.py:70-84 | The category name is "General" exactly when no keyword matches, and it is never "Frontend" |
| RunbookStore.InferCategoryIsFirstMatch | incident-triage-copilot/src/storage/runbook_store.py:80-82 | If row i matches and no earlier row does, the inferred category is row i's |
| RunbookStore.InferCategoryIgnoresCase | incident-triage-copilot/src/storage/runbook_store.py:66-67 | Inputs that lower-case alike infer the same category, and lower-casing first changes nothing |
| RunbookStore.ExtractTitle | incident-triage-copilot/src/storage/runbook_store.py:43-44 | The title is the first line with every '#' removed and the surrounding whitespace stripped: it sits right after the leading whitespace of that text, only whitespace follows it, and it neither starts nor ends with whitespace. It contains no '#' and no line break |
| RunbookStore.TitleOfHeading | incident-triage-copilot/src/storage/runbook_store.py:43-44 | A runbook whose first line is `# T` gets exactly the title T |
| RunbookStore.IndexFiles | incident-triage-copilot/src/storage/runbook_store.py:37-60 | Upserting the readable files one by one keeps the table invariants |
| RunbookStore.IndexFilesProvenance | incident-triage-copilot/src/storage/runbook_store.py:37-60 | Every row after indexing was already there, or was written for one of the files with its title, content and inferred category |
| RunbookStore.IndexFilesCovers | incident-triage-copilot/src/storage/runbook_store.py:37-60 | Every readable file has a row with its path after indexing |
| RunbookStore.IndexRunbooks | incident-triage-copilot/src/storage/runbook_store.py:24-60 | A missing directory leaves the index untouched. Otherwise every row comes from a file read in this run, and every readable file has a row |
| RunbookStore.EmptyCorpusSearch | incident-triage-copilot/src/storage/runbook_store.py:24-34 | Re-indexing an empty directory makes every later search return nothing |
| RunbookStore.SearchRunbooks | incident-triage-copilot/src/storage/runbook_store.py:86-93 | Runbook search returns the index's search result unchanged |
| RunbookStore.ListAllRunbooks | incident-triage-copilot/src/storage/runbook_store.py:104-106 | Runbook listing returns the index's listing unchanged |
| Fences.StripOuterFence | incident-triage-copilot/src/agents/classifier.py:128-131 | An unfenced reply is only stripped. A fenced reply is its first line, a line break, the result, a line break and its last line. With fewer than three lines the result is empty |
| Fences.FenceRoundTrip | incident-triage-copilot/src/agents/classifier.py:128-131 | A reply of the form fence-line, body, fence-line gives back exactly the body |
| Fences.StripFenceLines | incident-triage-copilot/src/agents/root_cause.py:107-110 | A fenced reply keeps exactly its lines whose stripped form does not start with a fence, in order |
| Fences.FenceLinesRoundTrip | incident-triage-copilot/src/agents/mitigation.py:107-110 | A fenced body with no inner fence lines comes back unchanged |
| Classifier.LogBlock | incident-triage-copilot/src/agents/classifier.py:111-112 | The log block is empty exactly when the logs are absent or empty. Otherwise it quotes at most the first 1000 characters |
| Classifier.ContextBlock | incident-triage-copilot/src/agents/classifier.py:114-115 | The context block is empty exactly when the additional context is absent or empty |
| Classifier.ClassifyRequest | incident-triage-copilot/src/agents/classifier.py:117-124 | The call uses the classifier persona at temperature 0.1 with the default token limit, and its prompt ends with the classify instruction |
| Classifier.PromptSeesLogPrefix | incident-triage-copilot/src/agents/classifier.py:111-112 | Logs that agree on their first 1000 characters give the same request |
| Classifier.PromptIgnoresEmptyText | incident-triage-copilot/src/agents/classifier.py:111-115 | Empty logs or context give the same request as absent ones |
| Classifier.Coerce | incident-triage-copilot/src/agents/classifier.py:136-142 | The result always has a valid severity and a valid category. Valid values are kept. An invalid severity becomes SEV3 and an invalid category becomes Infrastructure. Every other field, confidence included, is unchanged |
| Classifier.CoerceIdempotent | incident-triage-copilot/src/agents/classifier.py:136-142 | Repairing a repaired classification changes nothing |
| Classifier.FallbackWellClassified | incident-triage-copilot/src/agents/classifier.py:147-156 | The fallback classification has a valid severity and category |
| Classifier.ClassifyReply | incident-triage-copilot/src/agents/classifier.py:128-159 | A decode failure gives exactly the fallback. The stage fails exactly when the decoded value is not an object. Every success is well classified and keeps every other decoded field |
| Classifier.Classify | incident-triage-copilot/src/agents/classifier.py:119-159 | A backend failure propagates. Otherwise the result is the reply handling of the backend's answer, and every success is well classified |
| Classifier.Clamp | incident-triage-copilot/src/models.py:38 | The clamped value lies in [0, 1], equals the input inside that range, and equals the nearer bound outside it |
| Classifier.ClampConfidence | incident-triage-copilot/src/models.py:38 | The confidence becomes a number in [0, 1]. An in-range confidence leaves the classification unchanged, and no other field changes |
| Classifier.ClampClassification | incident-triage-copilot/src/agents/classifier.py:133-145 | Success and failure are preserved. Every success has a confidence that `TriageResult` accepts, and its other fields are unchanged |
| Classifier.ClassifyClamped | incident-triage-copilot/src/agents/classifier.py:133-145 | The clamped stage succeeds exactly when the original does, and its results are well classified with an acceptable confidence |
| Text.SectionAfterShape | incident-triage-copilot/src/agents/root_cause.py:54 | The section excerpt is a prefix of the text after the first heading and contains no `##` |
| Text.SectionAfterCutsAtMarker | incident-triage-copilot/src/agents/mitigation.py:42 | When the heading is not repeated after a `#`, the excerpt is exactly the text after the first heading up to the next `##` |
| RootCause.Ground | incident-triage-copilot/src/agents/root_cause.py:41-43 | The grounding list holds exactly the retrieved runbooks with similarity at least 0.3 |
| RootCause.GroundIsPrefix | incident-triage-copilot/src/agents/root_cause.py:42-43 | On a ranked retrieval list, grounding keeps a prefix in original order, and everything dropped is below 0.3 |
| RootCause.Grounding | incident-triage-copilot/src/agents/root_cause.py:33-43 | Grounding is one search for "alert_name description" with top_k 3 and the classified category, then the threshold. It yields at most 3 runbooks, all at or above 0.3, ranked, and in the category when the category is non-empty |
| RootCause.Refs | incident-triage-copilot/src/agents/root_cause.py:115-122 | The attached references keep the grounding list's length and order, each projected to title, path and similarity |
| RootCause.Excerpt | incident-triage-copilot/src/agents/root_cause.py:52-55 | There is no excerpt without a "## Root Causes" heading. Otherwise the excerpt is at most 500 characters of the section text before the next `##`, followed by an ellipsis |
| RootCause.RunbookContext | incident-triage-copilot/src/agents/root_cause.py:46-57 | No grounding gives the no-match marker. Otherwise the context starts with the runbook header |
| RootCause.NoMatchIffUngrounded | incident-triage-copilot/src/agents/root_cause.py:47-57 | The prompt carries the no-match marker exactly when no runbook was kept |
| RootCause.LogText | incident-triage-copilot/src/agents/root_cause.py:92 | The prompt quotes at most the first 1500 characters of non-empty logs, and says "No logs available" otherwise |
| RootCause.AnalyzeRequest | incident-triage-copilot/src/agents/root_cause.py:99-104 | The call uses the root-cause persona at temperature 0.2 with at most 1500 tokens |
| RootCause.AnalyzeReply | incident-triage-copilot/src/agents/root_cause.py:106-144 | A decode failure gives the fixed one-finding fallback with no runbooks. The stage fails exactly on a non-object, or on an object whose `root_causes` has no length (null, a number or a boolean), which the log line's `len(...)` rejects. A success keeps the decoded fields and attaches the projected grounding runbooks |
| RootCause.Analyze | incident-triage-copilot/src/agents/root_cause.py:25-144 | A backend failure propagates. Otherwise the reply is handled with the grounding runbooks, so it fails exactly as the reply handling does, and a success carries at most 3 runbooks, all at or above the threshold |
| RootCause.UncountableCausesFail | incident-triage-copilot/src/agents/root_cause.py:124 | A decoded object whose `root_causes` is null, a number or a boolean makes the stage fail with a type error |
| Mitigation.StepsFrom | incident-triage-copilot/src/agents/mitigation.py:40-43 | An unreadable file or a missing "## Immediate Mitigation" heading gives nothing. Otherwise the excerpt is the titled section text, free of `##` |
| Mitigation.Excerpts | incident-triage-copilot/src/agents/mitigation.py:36-43 | The runbook part is empty exactly when there are no runbooks. Otherwise it is the header plus the steps of the first two |
| Mitigation.ExcerptsUseTopTwo | incident-triage-copilot/src/agents/mitigation.py:39 | Runbooks after the second never change the prompt |
| Mitigation.Percent | incident-triage-copilot/src/agents/mitigation.py:77 | Percent formatting succeeds exactly for numbers and booleans |
| Mitigation.CauseLines | incident-triage-copilot/src/agents/mitigation.py:76-79 | There is one summary line per root cause, in order. It fails exactly when some root cause lacks a cause or a number-like likelihood |
| Mitigation.CauseSummary | incident-triage-copilot/src/agents/mitigation.py:76-79 | The summary succeeds exactly when the root causes are dictionaries that each render, and is then their lines joined by newlines |
| Json.Dicts | incident-triage-copilot/src/agents/mitigation.py:116-121 | Iterating a value whose items are then used as dictionaries succeeds exactly for lists of dictionaries (and empty strings or dicts). It yields the items in order and fails on null, booleans and numbers |
| Mitigation.PlanRequest | incident-triage-copilot/src/agents/mitigation.py:99-104 | The call uses the mitigation persona at temperature 0.2 with at most 2000 tokens |
| Mitigation.CitationsOf | incident-triage-copilot/src/agents/mitigation.py:115-121 | The collected citations are exactly the truthy citation fields of the steps. Missing or empty ones contribute nothing |
| Mitigation.Titles | incident-triage-copilot/src/agents/mitigation.py:124 | There is one title per relevant runbook, in order |
| Lists.Dedup | incident-triage-copilot/src/agents/mitigation.py:125 | De-duplication keeps the same members and leaves no duplicates |
| Mitigation.Citations | incident-triage-copilot/src/agents/mitigation.py:114-125 | The citations are exactly the truthy citations of actions and investigation steps plus the titles of all relevant runbooks, with no duplicates. The stage fails exactly on a non-iterable step list or an unhashable citation |
| Mitigation.PlanReply | incident-triage-copilot/src/agents/mitigation.py:106-153 | A decode failure gives the fixed fallback plan. A non-object fails. A decoded object gets its de-duplicated citations attached |
| Mitigation.GeneratePlan | incident-triage-copilot/src/agents/mitigation.py:25-153 | A malformed root-cause summary or a backend failure propagates. Otherwise the reply is handled with the given runbooks |
| Orchestrator.ActionText | incident-triage-copilot/src/orchestrator.py:100-107 | An action renders exactly when it has a step and an expected outcome |
| Orchestrator.NumberedOk | incident-triage-copilot/src/orchestrator.py:100-101 | A numbered list renders exactly when each item renders with its own number n + i |
| Orchestrator.NumberedAppend | incident-triage-copilot/src/orchestrator.py:100-101 | Rendering a concatenation renders the first part, then the second part numbered on from where the first stopped |
| Orchestrator.ActionsText | incident-triage-copilot/src/orchestrator.py:100-107 | The action list renders exactly when every action is renderable |
| Orchestrator.FalsyActionFieldsInvisible | incident-triage-copilot/src/orchestrator.py:102-106 | A falsy command or citation renders exactly like an absent one, so it adds no command block and no source line |
| Orchestrator.StepText | incident-triage-copilot/src/orchestrator.py:111-114 | An investigation step renders exactly when it has a step |
| Orchestrator.StepsText | incident-triage-copilot/src/orchestrator.py:111-114 | The step list renders exactly when every step has a step field |
| Orchestrator.InvestigationText | incident-triage-copilot/src/orchestrator.py:109-114 | Falsy steps give no section. Otherwise the section starts with its header and renders exactly when the steps are dictionaries with a step field |
| Orchestrator.EscalationText | incident-triage-copilot/src/orchestrator.py:116-121 | A falsy escalation gives no section, and a truthy one must be a dictionary. Missing fields show "As needed", "On-call team" and "#incidents" |
| Orchestrator.EscalationDefaults | incident-triage-copilot/src/orchestrator.py:119-121 | An escalation naming none of its fields shows all three defaults |
| Orchestrator.FormatPlan | incident-triage-copilot/src/orchestrator.py:96-123 | The plan renders exactly when its actions, investigation steps and escalation render, and it starts with the immediate-actions header |
| Orchestrator.FalsySectionsInvisible | incident-triage-copilot/src/orchestrator.py:109-121 | Falsy investigation steps and escalation render exactly as absent ones |
| Orchestrator.Causes | incident-triage-copilot/src/orchestrator.py:74 | The cause list has the same length and order as the root causes, each entry being that root cause's cause field. It fails exactly when one lacks it |
| Orchestrator.Stages | incident-triage-copilot/src/orchestrator.py:45-80 | Analysis and planning get the classifier's severity and category. Planning gets the analysis's root causes and runbooks. The draft carries the classifier's fields with defaults 0.0 and "", the analysis's runbooks and causes, the plan's citations and its rendering |
| Orchestrator.Build | incident-triage-copilot/src/orchestrator.py:69-80 | The result validates exactly when the confidence is in [0, 1] and the text fields are strings. It then carries the draft's severity, category, confidence, runbooks and plan, the draft's causes and citations as strings in order, the draft's reasoning (null meaning none), the elapsed time and the timestamp |
| Orchestrator.Triage | incident-triage-copilot/src/orchestrator.py:37-94 | A classifier failure fails the triage. On success, severity and category are the classifier's and valid, and the reasoning is the classifier's, or empty when it gave none. The runbooks are the analysis's (at most 3, all at or above 0.3), the root causes are the analysis's causes in order, the citations are the mitigation plan's in order, and the plan text is that plan rendered by `_format_mitigation_plan`, starting with the actions header |
| Orchestrator.TriageAndRecord | incident-triage-copilot/src/orchestrator.py:83-91 | A completed triage appends exactly one metrics entry carrying the result's fields. A failed triage records nothing |
| Orchestrator.OutOfRangeConfidenceFails | incident-triage-copilot/src/orchestrator.py:73 | A classifier confidence that is a number outside [0, 1] makes the triage fail, whatever the later stages return |
| Orchestrator.ClassifierKeepsConfidence | incident-triage-copilot/src/agents/classifier.py:133-145 | A decoded confidence reaches the classification untouched |
| Orchestrator.TriageCorrected | incident-triage-copilot/src/orchestrator.py:69-80 | With the clamp, a classifier failure still fails the triage, and successes carry valid severity and category |
| Orchestrator.CorrectedConfidenceNeverFails | incident-triage-copilot/src/orchestrator.py:69-80 | With the clamp, once the stages succeed the result is valid exactly when its text fields are. The confidence never decides |
| Models.StrField | incident-triage-copilot/src/models.py:15-19 | A required string field is accepted exactly when present and a string |
| Models.StrList | incident-triage-copilot/src/models.py:21-23 | A list-of-strings field is accepted exactly when it is a list of strings, element by element |
| Models.Metrics | incident-triage-copilot/src/models.py:20 | A metrics field is accepted exactly when it is an object of numbers, with the same keys |
| Models.AlertFromFields | incident-triage-copilot/src/models.py:13-23 | An alert builds exactly when the five required strings are present and every optional field given has its type. The required fields are copied |
| Models.AlertDefaults | incident-triage-copilot/src/models.py:20-23 | Omitted metrics, services and tags default to empty, and the environment to "production" |
| Models.ContextOf | incident-triage-copilot/src/models.py:26-30 | A context built from an alert alone has no logs and no additional context |
| Models.OptStr | incident-triage-copilot/src/models.py:43 | An optional string accepts a string or null, and null means absent |
| Models.ConfidenceScore | incident-triage-copilot/src/models.py:38 | The confidence is accepted exactly when it is a number in [0, 1] |
| Models.NewTriageResult | incident-triage-copilot/src/models.py:33-45 | Construction succeeds exactly when the confidence bound, the string lists and the optional reasoning validate. It then stores the given values, including the reasoning with null read as none |
| Evaluator.Fraction | incident-triage-copilot/src/evaluation/evaluator.py:133 | A count out of n is a share in [0, 1]: k divided by n, so that times n it gives k back. It is 1 exactly when the count is n and 0 exactly when the count is 0 |
| Evaluator.Overlap | incident-triage-copilot/src/evaluation/evaluator.py:118-133 | The overlap lies in [0, 1] and is 0 when either side is empty. It is 1 exactly when every predicted cause is related to some actual cause, and 0 exactly when none is. The actual causes are a set, because only membership is used |
| Evaluator.OverlapValue | incident-triage-copilot/src/evaluation/evaluator.py:128-133 | With both sides non-empty, the overlap is the number of predicted causes matched by some actual cause divided by the number of predicted causes |
| Evaluator.LowerAll | incident-triage-copilot/src/evaluation/evaluator.py:124-125 | Lower-casing a list keeps its length and lower-cases each element |
| Evaluator.LowerSet | incident-triage-copilot/src/evaluation/evaluator.py:125 | The lower-cased set holds the lower-cased form of every actual cause, and nothing else |
| Evaluator.OverlapIgnoresCase | incident-triage-copilot/src/evaluation/evaluator.py:124-125 | Lower-casing either side first leaves the overlap unchanged |
| Evaluator.OverlapSelf | incident-triage-copilot/src/evaluation/evaluator.py:128-131 | A non-empty list of causes overlaps its own elements completely |
| Evaluator.OverlapCoveredByOne | incident-triage-copilot/src/evaluation/evaluator.py:128-131 | An actual cause containing every predicted cause gives overlap 1 |
| Evaluator.ActualCauses | incident-triage-copilot/src/evaluation/evaluator.py:125 | Iterating the ground truth gives the strings of a list of strings, the one-character strings of a string, or the keys of an object. A list holding a non-string fails, and so does a null, a number or a boolean |
| Evaluator.CaseOverlap | incident-triage-copilot/src/evaluation/evaluator.py:88-91 | A falsy side gives 0. Otherwise the overlap is defined exactly when the ground truth can be iterated as causes, a non-empty object is scored against its keys, and the result is a share |
| Evaluator.Field | incident-triage-copilot/src/evaluation/evaluator.py:77-87 | Indexing a decoded value by key succeeds exactly on an object that has the key |
| Evaluator.AlertDict | incident-triage-copilot/src/evaluation/evaluator.py:62-67 | The alert record has the three top-level keys plus the alert-data keys. Alert-data values override the top-level ones |
| Evaluator.TopLevelFieldsKept | incident-triage-copilot/src/evaluation/evaluator.py:62-67 | Alert data that does not restate id, timestamp or name leaves those as the case gives them |
| Evaluator.CaseContext | incident-triage-copilot/src/evaluation/evaluator.py:68-71 | A case's context is the alert built from the merged record. Missing logs become the empty string, and there is never additional context |
| Evaluator.EvaluateCase | incident-triage-copilot/src/evaluation/evaluator.py:58-94 | A case scores exactly when its context builds, the triage succeeds, and the ground truth has severity, category and root causes whose overlap with the triaged causes is defined. A scored case then has match flags that agree with the predicted and ground-truth values, the triage result's severity, category and time, and that overlap |
| Evaluator.EvaluateCases | incident-triage-copilot/src/evaluation/evaluator.py:58-94 | The loop succeeds exactly when every case does, with one entry per case in order |
| Evaluator.Sum | incident-triage-copilot/src/evaluation/evaluator.py:101-104 | A sum of shares lies between 0 and the number of terms |
| Evaluator.Mean | incident-triage-copilot/src/evaluation/evaluator.py:103-104 | The mean of n shares is a share, and times n it gives back the sum |
| Evaluator.Accuracy | incident-triage-copilot/src/evaluation/evaluator.py:101-102 | An accuracy is the number of matching cases divided by the number of cases. It lies in [0, 1], and is 1 exactly when every case matches and 0 exactly when none does |
| Evaluator.MeanOverlap | incident-triage-copilot/src/evaluation/evaluator.py:104 | The mean root-cause overlap is the sum of the case overlaps divided by the number of cases, and lies in [0, 1] |
| Evaluator.Summarise | incident-triage-copilot/src/evaluation/evaluator.py:101-113 | The summary's total is the case count and it keeps the case results. The severity and category accuracies are the matching counts divided by the case count, with the all/none characterisation. The average processing time and the average overlap are the sums divided by the case count, and the overlap average is a share |
| Evaluator.EvaluateAll | incident-triage-copilot/src/evaluation/evaluator.py:45-116 | No cases give only the error entry. Otherwise it succeeds exactly when every case does. The report then holds each case's own result in order, and it is the summary of those results |
| Evaluator.PerfectSeverityAccuracy | incident-triage-copilot/src/evaluation/evaluator.py:101 | Severity accuracy is 1 exactly when every case's predicted severity equals its ground truth |

## Left out

- Streamlit UI (`app.py`), configuration and sample-file globbing: presentation only.
- LLM network clients (`src/llm/*.py`): the backend is the `generate` field of `Oracles.Oracles`. Its errors are `Err(GenerationFailed)`. Failing fast when the backend is unreachable at start-up is not part of this model.
- The sentence-embedding model: `embed` is an uninterpreted total function. Embedding failures inside `add_runbook` are not modelled.
- VectorStore.Cosine: the [-1, 1] bound is not stated. Magnitudes use a caller-supplied `sqrt` on unbounded reals, and the zero guard is proved for any `sqrt` with `sqrt(0) = 0`. Floating-point rounding is not modelled.
- SQLite persistence and the JSON encoding of embeddings: the table is an in-memory sequence, and embeddings are stored as the vector itself. Row order is assumed to be rowid order, which is what a plain `SELECT` returns here.
- `json.loads`: an abstract partial parser `parse`. Decoded objects are maps, so Python's key order is not kept.
- Incident history (`src/storage/incident_store.py`), metrics session bookkeeping beyond the one `record_triage` call, the JSONL feedback log and logging setup. The metrics entry's own timestamp is left out.
- `processing_time` and the result's creation timestamp: both are parameters (`elapsed`, `now`) because they come from the clock.
- Prompt wording and the system prompts: each stage's system prompt is an enumeration value (`Oracles.Persona`). The severity escalation rules in the classifier prompt instruct the backend but are enforced nowhere in code, so no guarantee about them is stated.
- Number formatting (`{:.2f}`, `{:.0%}`, `json.dumps(metrics, indent=2)`) and `str()` of non-string JSON values are oracles.
- Golden-case loading, report writing and the test script: file handling and interactive use.
- Package `__init__.py` re-exports: no logic.
- Mitigation.Citations: `list(set(...))` has an unspecified order. The model returns first occurrences in gathering order, which gives the same members and no duplicates. Python's set also merges `true` with `1`, and the model keeps them apart.
- Models.NewTriageResult: pydantic's lax coercion, such as the string "0.8" or a boolean accepted as a float confidence, is not modelled. Only JSON numbers are accepted.
- RunbookStore.InferCategory: lower-casing covers ASCII letters only. Python's `str.lower` also folds other scripts.
- Evaluator.Overlap: same ASCII-only lower-casing as above.
- Models.Metrics: pydantic's lax mode also accepts numeric strings and booleans as `float` values. The model accepts only JSON numbers.
- Floating-point arithmetic: Python floats are exact reals throughout the model, in similarities and the 0.3 threshold, the confidence bound, and the evaluator's accuracies and averages. Rounding is not modelled.
- `Json.JNum` holds one real number for Python's `int` and `float` alike, so the model cannot tell `1` from `1.0`. Where the plan renders a value through `str()` (orchestrator.py:101-121), the oracle `show` sees only the number.
- Orchestrator.TriageAndRecord: recording cannot fail in the model. In the code, an exception raised by `record_triage` would propagate out of `triage_incident`.

Points where the code does something other than its own messages or intent suggest; the model follows the code:

- For an invalid category, classifier.py:141 logs "defaulting to General" but line 142 stores "Infrastructure".
- Every stage recovers only from `json.JSONDecodeError` (for example root_cause.py:127); its other `except Exception` clause re-raises. A reply that decodes to something other than an object therefore raises, and the model returns `Err` for it. So does a root-cause object whose `root_causes` is null, a number or a boolean, because root_cause.py:124 takes its `len`.
- orchestrator.py:83-91 calls `record_triage` without a `try`, so an exception raised while recording metrics propagates out of `triage_incident`.

## Findings

| source | as written | input that shows it | evidently intended | confidence | as-written member | corrected member |
|---|---|---|---|---|---|---|
| incident-triage-copilot/src/agents/classifier.py:133-145 | The classifier passes the generated `confidence` through unclamped. `TriageResult` at models.py:38 then rejects any value outside [0, 1], so the whole triage raises | A reply `{"severity": "SEV1", "category": "Database", "confidence": 85}` | Confidence clamped into [0, 1] before the result is built, so a usable result is always produced | not executed | Orchestrator.OutOfRangeConfidenceFails | Orchestrator.CorrectedConfidenceNeverFails |

=== FILE: Classifier.dfy ===
/** The classification stage: one prompt to the backend describing the incident, a reply expected to
    be a JSON object, and the repairs applied to its `severity` and `category` fields. */
module Classifier {
  import opened Wrappers
  import opened Text
  import opened Json
  import opened Oracles
  import opened Models
  import opened Fences

  const SeverityLevels: seq<string> := ["SEV1", "SEV2", "SEV3", "SEV4"]

  const Categories: seq<string> :=
    ["Database", "API/Service", "Infrastructure", "Network", "Security", "Performance", "Data Pipeline", "Frontend"]

  predicate IsLevel(v: Json)
  {
    v.JStr? && v.s in SeverityLevels
  }

  predicate IsCategory(v: Json)
  {
    v.JStr? && v.s in Categories
  }

  /** The classification returned when the reply is not JSON. */
  const Fallback: Object := map[
    "severity" := JStr("SEV3"),
    "category" := JStr("Infrastructure"),
    "confidence" := JNum(0.3),
    "reasoning" := JStr("Classification failed, using default values")]

  // ---- The prompt ----

  /** The alert summary block, with the metrics rendered by `json.dumps(..., indent=2)`. */
  function Summary(a: IncidentAlert, metricsJson: map<string, real> -> string): string
  {
    "\nIncident Alert:\n- Alert Name: " + a.alertName
    + "\n- Description: " + a.description
    + "\n- Source: " + a.source
    + "\n- Affected Services: " + Join(", ", a.affectedServices)
    + "\n- Environment: " + a.environment
    + "\n- Tags: " + Join(", ", a.tags)
    + "\n\nMetrics:\n" + metricsJson(a.metrics) + "\n"
  }

  /** The log block: at most the first 1000 characters, and nothing when logs are absent or empty. */
  function LogBlock(logs: Option<string>): (r: string)
    ensures !Given(logs) <==> r == ""
    ensures Given(logs) ==> r == "\n\nRecent Logs:\n" + Prefix(logs.value, 1000)
  {
    if Given(logs) then "\n\nRecent Logs:\n" + Prefix(logs.value, 1000) else ""
  }

  /** The additional-context block: nothing when the context is absent or empty. */
  function ContextBlock(ctx: Option<string>): (r: string)
    ensures !Given(ctx) <==> r == ""
  {
    if Given(ctx) then "\n\nAdditional Context:\n" + ctx.value else ""
  }

  function Prompt(c: IncidentContext, metricsJson: map<string, real> -> string): string
  {
    Summary(c.alert, metricsJson) + LogBlock(c.logs) + ContextBlock(c.additionalContext) + "\n\nClassify this incident:"
  }

  /** The backend call: the classifier persona at temperature 0.1, default token limit. */
  function ClassifyRequest(c: IncidentContext, metricsJson: map<string, real> -> string): (q: Request)
    ensures q.persona == ClassifierPersona && q.temperature == 0.1 && q.maxTokens.None?
    ensures EndsWith(q.prompt, "\n\nClassify this incident:")
  {
    var p := Prompt(c, metricsJson);
    assert p[|p| - |"\n\nClassify this incident:"|..] == "\n\nClassify this incident:";
    Request(p, ClassifierPersona, 0.1, None)
  }

  /** Only the first 1000 characters of non-empty logs reach the backend. */
  lemma PromptSeesLogPrefix(c: IncidentContext, logs: string, metricsJson: map<string, real> -> string)
    requires Given(c.logs) && |logs| > 0 && Prefix(logs, 1000) == Prefix(c.logs.value, 1000)
    ensures ClassifyRequest(c.(logs := Some(logs)), metricsJson) == ClassifyRequest(c, metricsJson)
  {
  }

  /** Empty logs and empty context are treated exactly like missing ones. */
  lemma PromptIgnoresEmptyText(c: IncidentContext, metricsJson: map<string, real> -> string)
    ensures ClassifyRequest(c.(logs := Some("")), metricsJson) == ClassifyRequest(c.(logs := None), metricsJson)
    ensures ClassifyRequest(c.(additionalContext := Some("")), metricsJson)
         == ClassifyRequest(c.(additionalContext := None), metricsJson)
  {
  }

  // ---- The reply ----

  /** The repairs of `classify`: an invalid severity becomes "SEV3", an invalid category becomes
      "Infrastructure", every other field is kept. */
  function Coerce(m: Object): (r: Object)
    ensures "severity" in r && IsLevel(r["severity"]) && "category" in r && IsCategory(r["category"])
    ensures IsLevel(Get(m, "severity")) ==> r["severity"] == m["severity"]
    ensures !IsLevel(Get(m, "severity")) ==> r["severity"] == JStr("SEV3")
    ensures IsCategory(Get(m, "category")) ==> r["category"] == m["category"]
    ensures !IsCategory(Get(m, "category")) ==> r["category"] == JStr("Infrastructure")
    ensures r.Keys == m.Keys + {"severity", "category"}
    ensures forall k :: k in m && k != "severity" && k != "category" ==> r[k] == m[k]
  {
    var m1 := if IsLevel(Get(m, "severity")) then m else m["severity" := JStr("SEV3")];
    if IsCategory(Get(m1, "category")) then m1 else m1["category" := JStr("Infrastructure")]
  }

  /** Repairing twice changes nothing more. */
  lemma CoerceIdempotent(m: Object)
    ensures Coerce(Coerce(m)) == Coerce(m)
  {
  }

  /** A classification as `classify` returns it: severity and category valid. */
  predicate WellClassified(m: Object)
  {
    "severity" in m && IsLevel(m["severity"]) && "category" in m && IsCategory(m["category"])
  }

  lemma FallbackWellClassified()
    ensures WellClassified(Fallback)
  {
    assert Fallback["severity"] == JStr(SeverityLevels[2]);
    assert Fallback["category"] == JStr(Categories[2]);
  }

  /** The reply handling of `classify`: undecodable text gives the fallback, a decoded object is
      repaired, and any other decoded value fails at `result.get`. */
  function ClassifyReply(reply: string, parse: string -> Option<Json>): (r: Result<Object>)
    ensures parse(StripOuterFence(reply)).None? ==> r == Ok(Fallback)
    ensures r.Err? <==> parse(StripOuterFence(reply)).Some? && !parse(StripOuterFence(reply)).value.JObj?
    ensures r.Ok? ==> WellClassified(r.value)
    ensures r.Ok? && parse(StripOuterFence(reply)).Some? ==>
      var m := parse(StripOuterFence(reply)).value.fields;
      forall k :: k in m && k != "severity" && k != "category" ==> k in r.value && r.value[k] == m[k]
  {
    match parse(StripOuterFence(reply))
    case None => FallbackWellClassified(); Ok(Fallback)
    case Some(JObj(m)) => Ok(Coerce(m))
    case Some(_) => Err(TypeError)
  }

  /** `classify(incident)`: a backend failure propagates; otherwise the reply is handled as above. */
  function Classify(c: IncidentContext, o: Oracles): (r: Result<Object>)
    ensures o.generate(ClassifyRequest(c, o.metricsJson)).Err? ==> r.Err?
    ensures o.generate(ClassifyRequest(c, o.metricsJson)).Ok? ==>
      r == ClassifyReply(o.generate(ClassifyRequest(c, o.metricsJson)).value, o.parse)
    ensures r.Ok? ==> WellClassified(r.value)
  {
    var reply :- o.generate(ClassifyRequest(c, o.metricsJson));
    ClassifyReply(reply, o.parse)
  }

  // ---- Corrected confidence ----

  /** `max(0.0, min(1.0, x))`. */
  function Clamp(x: real): (r: real)
    ensures 0.0 <= r <= 1.0
    ensures 0.0 <= x <= 1.0 ==> r == x
    ensures x < 0.0 ==> r == 0.0
    ensures x > 1.0 ==> r == 1.0
  {
    if x < 0.0 then 0.0 else if x > 1.0 then 1.0 else x
  }

  /** The confidence repair `classify` evidently needs: a number is clamped into [0, 1]; anything else
      becomes 0.0, the default the orchestrator already applies to a missing confidence. */
  function ClampConfidence(m: Object): (r: Object)
    ensures "confidence" in r && r["confidence"].JNum? && 0.0 <= r["confidence"].n <= 1.0
    ensures "confidence" in m && m["confidence"].JNum? && 0.0 <= m["confidence"].n <= 1.0 ==> r == m
    ensures forall k :: k in m && k != "confidence" ==> k in r && r[k] == m[k]
    ensures r.Keys == m.Keys + {"confidence"}
  {
    var v := GetOr(m, "confidence", JNum(0.0));
    var x := if v.JNum? then Clamp(v.n) else 0.0;
    if "confidence" in m && v == JNum(x) then m else m["confidence" := JNum(x)]
  }

  /** The confidence repair applied to a classification outcome; failures pass through. */
  function ClampClassification(cls: Result<Object>): (r: Result<Object>)
    ensures r.Ok? <==> cls.Ok?
    ensures r.Err? ==> r == cls
    ensures r.Ok? ==> "confidence" in r.value && ConfidenceScore(r.value["confidence"]).Ok?
    ensures r.Ok? ==> forall k :: k in cls.value && k != "confidence" ==> k in r.value && r.value[k] == cls.value[k]
  {
    if cls.Err? then cls
    else
      var m := ClampConfidence(cls.value);
      assert ConfidenceScore(m["confidence"]).Ok?;
      Ok(m)
  }

  /** `classify` with the confidence repair applied after the severity and category repairs. */
  function ClassifyClamped(c: IncidentContext, o: Oracles): (r: Result<Object>)
    ensures r.Ok? <==> Classify(c, o).Ok?
    ensures r.Ok? ==> WellClassified(r.value)
    ensures r.Ok? ==> "confidence" in r.value && ConfidenceScore(r.value["confidence"]).Ok?
  {
    ClampClassification(Classify(c, o))
  }
}

=== FILE: Evaluator.dfy ===
/** Scoring triage results against golden cases: the substring-based root-cause overlap, the
    assembly of each case's alert record, and the aggregate accuracy fractions. Loading the case
    files and writing the report are not modelled; the cases arrive as decoded JSON values and the
    orchestrator as a function from incident to result. */
module Evaluator {
  import opened Wrappers
  import opened Lists
  import opened Text
  import opened Json
  import opened Models

  // ---- Root-cause overlap ----

  /** `a in p or p in a`: one string occurs inside the other. */
  predicate Related(p: string, a: string)
  {
    Contains(p, a) || Contains(a, p)
  }

  /** A predicted cause is matched when, both lower-cased, it and some ground-truth cause are related. */
  predicate Matched(p: string, actual: set<string>)
  {
    exists a :: a in actual && Related(Lower(p), Lower(a))
  }

  /** `k / n` for a count `k` out of `n`. */
  function Fraction(k: nat, n: nat): (r: real)
    requires 0 < n && k <= n
    ensures 0.0 <= r <= 1.0
    ensures r == 1.0 <==> k == n
    ensures r == 0.0 <==> k == 0
    ensures r == k as real / n as real
  {
    var r := k as real / n as real;
    assert r * n as real == k as real;
    r
  }

  /** Being matched by some cause of `actual`, as a predicate `Count` can take. */
  function MatchedBy(actual: set<string>): (f: string -> bool)
    ensures forall p :: f(p) == Matched(p, actual)
  {
    (p: string) => Matched(p, actual)
  }

  /** `_calculate_overlap(predicted, actual)`: the share of predicted causes matched by some actual
      cause, and 0 when either side is empty. The ground truth is only ever iterated for membership,
      so it is a set of causes. */
  function Overlap(predicted: seq<string>, actual: set<string>): (r: real)
    ensures 0.0 <= r <= 1.0
    ensures |predicted| == 0 || actual == {} ==> r == 0.0
    ensures r == 1.0 <==> |predicted| > 0 && actual != {} && forall i :: 0 <= i < |predicted| ==> Matched(predicted[i], actual)
    ensures r == 0.0 <==> |predicted| == 0 || actual == {} || forall i :: 0 <= i < |predicted| ==> !Matched(predicted[i], actual)
  {
    if |predicted| == 0 || actual == {} then 0.0
    else
      var matched := MatchedBy(actual);
      CountFull(predicted, matched);
      CountEmpty(predicted, matched);
      Fraction(Count(predicted, matched), |predicted|)
  }

  /** The overlap is the number of matched predicted causes divided by the number of predicted causes. */
  lemma OverlapValue(predicted: seq<string>, actual: set<string>)
    requires |predicted| > 0 && actual != {}
    ensures Overlap(predicted, actual) == Count(predicted, MatchedBy(actual)) as real / |predicted| as real
  {
  }

  /** `[x.lower() for x in xs]`. */
  function LowerAll(xs: seq<string>): (r: seq<string>)
    ensures |r| == |xs| && forall i :: 0 <= i < |xs| ==> r[i] == Lower(xs[i])
  {
    seq(|xs|, i requires 0 <= i < |xs| => Lower(xs[i]))
  }

  /** The lower-cased ground-truth causes. */
  function LowerSet(xs: set<string>): (r: set<string>)
    ensures forall x :: x in xs ==> Lower(x) in r
    ensures forall a :: a in r ==> exists x :: x in xs && a == Lower(x)
  {
    set x | x in xs :: Lower(x)
  }

  /** Lower-casing either side first changes nothing: the overlap ignores letter case. */
  lemma OverlapIgnoresCase(predicted: seq<string>, actual: set<string>)
    ensures Overlap(LowerAll(predicted), LowerSet(actual)) == Overlap(predicted, actual)
  {
    var la := LowerSet(actual);
    if actual != {} {
      var x :| x in actual;
      assert Lower(x) in la;
    }
    if |predicted| > 0 && actual != {} {
      var lp := LowerAll(predicted);
      forall i | 0 <= i < |predicted|
        ensures Matched(lp[i], la) == Matched(predicted[i], actual)
      {
        LowerIdempotent(predicted[i]);
        if Matched(lp[i], la) {
          var a :| a in la && Related(Lower(lp[i]), Lower(a));
          var x :| x in actual && a == Lower(x);
          LowerIdempotent(x);
          assert Related(Lower(predicted[i]), Lower(x));
        }
        if Matched(predicted[i], actual) {
          var x :| x in actual && Related(Lower(predicted[i]), Lower(x));
          LowerIdempotent(x);
          assert Lower(x) in la && Related(Lower(lp[i]), Lower(Lower(x)));
        }
      }
      CountAgrees(lp, MatchedBy(la), predicted, MatchedBy(actual));
    }
  }

  /** The elements of a list of causes. */
  function Elements(xs: seq<string>): (r: set<string>)
    ensures forall i :: 0 <= i < |xs| ==> xs[i] in r
    ensures forall a :: a in r ==> exists i :: 0 <= i < |xs| && xs[i] == a
  {
    set i | 0 <= i < |xs| :: xs[i]
  }

  /** Any non-empty list of causes overlaps its own elements completely. */
  lemma OverlapSelf(causes: seq<string>)
    requires |causes| > 0
    ensures Overlap(causes, Elements(causes)) == 1.0
  {
    forall i | 0 <= i < |causes|
      ensures Matched(causes[i], Elements(causes))
    {
      ContainsSelf(Lower(causes[i]));
      assert causes[i] in Elements(causes) && Related(Lower(causes[i]), Lower(causes[i]));
    }
    assert causes[0] in Elements(causes);
  }

  /** A ground-truth cause that contains every predicted cause makes the overlap complete,
      however many other causes either side lists. */
  lemma OverlapCoveredByOne(predicted: seq<string>, actual: set<string>, a: string)
    requires |predicted| > 0 && a in actual
    requires forall i :: 0 <= i < |predicted| ==> Contains(Lower(a), Lower(predicted[i]))
    ensures Overlap(predicted, actual) == 1.0
  {
    forall i | 0 <= i < |predicted|
      ensures Matched(predicted[i], actual)
    {
      assert Related(Lower(predicted[i]), Lower(a));
    }
  }

  /** The ground-truth causes as `for a in actual` with `a.lower()` sees them: the strings of a list,
      the characters of a string, or the keys of a dictionary; anything else raises, and so does a
      list holding a non-string. */
  function ActualCauses(v: Json): (r: Result<set<string>>)
    ensures v.JArr? ==> (r.Ok? <==> AllStrings(v.items))
    ensures v.JArr? && r.Ok? ==> forall a :: a in r.value <==> JStr(a) in v.items
    ensures v.JStr? ==> r.Ok? && forall a :: a in r.value <==> |a| == 1 && a[0] in v.s
    ensures v.JObj? ==> r == Ok(v.fields.Keys)
    ensures !v.JArr? && !v.JStr? && !v.JObj? ==> r == Err(TypeError)
  {
    match v
    case JArr(items) =>
      if AllStrings(items) then
        var r := set x | x in items && x.JStr? :: x.s;
        assert forall a :: JStr(a) in items ==> JStr(a).s in r;
        Ok(r)
      else Err(TypeError)
    case JStr(s) =>
      var r := set c | c in s :: [c];
      assert forall a :: |a| == 1 && a[0] in s ==> a == [a[0]];
      Ok(r)
    case JObj(m) => Ok(m.Keys)
    case _ => Err(TypeError)
  }

  /** The overlap of a result's causes with a ground-truth value: 0 when either is falsy, before
      the ground truth is looked at. */
  function CaseOverlap(predicted: seq<string>, actual: Json): (r: Result<real>)
    ensures |predicted| == 0 || !Truthy(actual) ==> r == Ok(0.0)
    ensures |predicted| > 0 && Truthy(actual) ==> (r.Ok? <==> ActualCauses(actual).Ok?)
    ensures |predicted| > 0 && Truthy(actual) && actual.JObj? ==> r == Ok(Overlap(predicted, actual.fields.Keys))
    ensures r.Ok? ==> 0.0 <= r.value <= 1.0
  {
    if |predicted| == 0 || !Truthy(actual) then Ok(0.0)
    else
      var a :- ActualCauses(actual);
      Ok(Overlap(predicted, a))
  }

  // ---- One golden case ----

  /** `v[k]` on a decoded value: only a dictionary can be indexed by a string key. */
  function Field(v: Json, k: string): (r: Result<Json>)
    ensures r.Ok? <==> v.JObj? && k in v.fields
    ensures r.Ok? ==> r.value == v.fields[k]
    ensures v.JObj? && k !in v.fields ==> r == Err(KeyError)
    ensures !v.JObj? ==> r == Err(TypeError)
  {
    if v.JObj? then Index(v.fields, k) else Err(TypeError)
  }

  /** The alert record of a case: its id, timestamp and alert name, then every entry of `alert_data`,
      which wins over the three when it names them too. */
  function AlertDict(c: Json): (r: Result<Object>)
    ensures r.Ok? <==>
      && c.JObj? && "incident_id" in c.fields && "timestamp" in c.fields && "alert_name" in c.fields
      && "alert_data" in c.fields && c.fields["alert_data"].JObj?
    ensures r.Ok? ==> forall k :: k in r.value <==> k in c.fields["alert_data"].fields || k in {"incident_id", "timestamp", "alert_name"}
    ensures r.Ok? ==> forall k :: k in c.fields["alert_data"].fields ==> r.value[k] == c.fields["alert_data"].fields[k]
    ensures r.Ok? ==> forall k :: k in {"incident_id", "timestamp", "alert_name"} && k !in c.fields["alert_data"].fields ==> r.value[k] == c.fields[k]
  {
    var id :- Field(c, "incident_id");
    var ts :- Field(c, "timestamp");
    var name :- Field(c, "alert_name");
    var data :- Field(c, "alert_data");
    if !data.JObj? then Err(TypeError)
    else Ok(map["incident_id" := id, "timestamp" := ts, "alert_name" := name] + data.fields)
  }

  /** An `alert_data` that restates none of the three top-level fields leaves them as the case gives them. */
  lemma TopLevelFieldsKept(c: Json)
    requires AlertDict(c).Ok?
    requires var data := c.fields["alert_data"].fields;
      "incident_id" !in data && "timestamp" !in data && "alert_name" !in data
    ensures AlertDict(c).value["incident_id"] == c.fields["incident_id"]
    ensures AlertDict(c).value["timestamp"] == c.fields["timestamp"]
    ensures AlertDict(c).value["alert_name"] == c.fields["alert_name"]
  {
  }

  /** `IncidentContext(alert=IncidentAlert(**alert_dict), logs=case.get("logs", ""))`: a case without
      logs gets the empty string, not `None`. */
  function CaseContext(c: Json): (r: Result<IncidentContext>)
    ensures r.Ok? ==> AlertDict(c).Ok? && AlertFromFields(AlertDict(c).value) == Ok(r.value.alert)
    ensures r.Ok? ==> r.value.additionalContext.None?
    ensures r.Ok? && "logs" !in c.fields ==> r.value.logs == Some("")
    ensures r.Ok? && "logs" in c.fields ==> OptStr(c.fields["logs"]) == Ok(r.value.logs)
    ensures AlertDict(c).Ok? && AlertFromFields(AlertDict(c).value).Ok? ==>
      (r.Ok? <==> OptStr(GetOr(c.fields, "logs", JStr(""))).Ok?)
    ensures AlertDict(c).Err? ==> r.Err?
  {
    var d :- AlertDict(c);
    var alert :- AlertFromFields(d);
    var logs :- OptStr(GetOr(c.fields, "logs", JStr("")));
    Ok(IncidentContext(alert, logs, None))
  }

  /** The per-case entry of the report. */
  datatype CaseResult = CaseResult(
    incidentId: Json,
    severityMatch: bool,
    categoryMatch: bool,
    processingTime: real,
    predictedSeverity: string,
    actualSeverity: Json,
    predictedCategory: string,
    actualCategory: Json,
    overlap: real)

  /** A case result whose match flags agree with its recorded values and whose overlap is a share. */
  predicate Consistent(e: CaseResult)
  {
    && (e.severityMatch <==> e.actualSeverity == JStr(e.predictedSeverity))
    && (e.categoryMatch <==> e.actualCategory == JStr(e.predictedCategory))
    && 0.0 <= e.overlap <= 1.0
  }

  /** One iteration of the loop in `evaluate_all`: build the incident, triage it, compare with the
      ground truth. */
  function EvaluateCase(c: Json, triage: IncidentContext -> Result<TriageResult>): (r: Result<CaseResult>)
    ensures r.Ok? ==> Consistent(r.value)
    ensures r.Ok? ==> CaseContext(c).Ok? && triage(CaseContext(c).value).Ok?
    ensures r.Ok? ==>
      var t := triage(CaseContext(c).value).value;
      && r.value.predictedSeverity == t.severity && r.value.predictedCategory == t.category
      && r.value.processingTime == t.processingTime
    ensures r.Ok? ==> Field(c, "ground_truth").Ok? && Field(c.fields["ground_truth"], "severity") == Ok(r.value.actualSeverity)
    ensures r.Ok? ==> Field(c.fields["ground_truth"], "category") == Ok(r.value.actualCategory)
    ensures r.Ok? ==> r.value.incidentId == c.fields["incident_id"]
    ensures r.Ok? <==>
      && CaseContext(c).Ok? && triage(CaseContext(c).value).Ok? && Field(c, "ground_truth").Ok?
      && var truth := c.fields["ground_truth"];
         && Field(truth, "severity").Ok? && Field(truth, "category").Ok? && Field(truth, "root_causes").Ok?
         && CaseOverlap(triage(CaseContext(c).value).value.rootCauses, truth.fields["root_causes"]).Ok?
    ensures r.Ok? ==>
      CaseOverlap(triage(CaseContext(c).value).value.rootCauses, c.fields["ground_truth"].fields["root_causes"])
        == Ok(r.value.overlap)
  {
    var ctx :- CaseContext(c);
    var id := c.fields["incident_id"];
    var t :- triage(ctx);
    var truth :- Field(c, "ground_truth");
    var severity :- Field(truth, "severity");
    var category :- Field(truth, "category");
    var causes :- Field(truth, "root_causes");
    var overlap :- CaseOverlap(t.rootCauses, causes);
    Ok(CaseResult(id, JStr(t.severity) == severity, JStr(t.category) == category, t.processingTime,
                  t.severity, severity, t.category, category, overlap))
  }

  /** The loop over all cases; the first case that raises aborts the evaluation. */
  function EvaluateCases(cases: seq<Json>, triage: IncidentContext -> Result<TriageResult>): (r: Result<seq<CaseResult>>)
    ensures r.Ok? <==> forall i :: 0 <= i < |cases| ==> EvaluateCase(cases[i], triage).Ok?
    ensures r.Ok? ==> |r.value| == |cases| && forall i :: 0 <= i < |cases| ==> Ok(r.value[i]) == EvaluateCase(cases[i], triage)
    decreases |cases|
  {
    if |cases| == 0 then Ok([])
    else
      var e :- EvaluateCase(cases[0], triage);
      var rest :- EvaluateCases(cases[1..], triage);
      Ok([e] + rest)
  }

  // ---- Aggregates ----

  /** Python's `sum(...)` of a list of numbers. */
  function Sum(xs: seq<real>): (s: real)
    ensures (forall i :: 0 <= i < |xs| ==> 0.0 <= xs[i] <= 1.0) ==> 0.0 <= s <= |xs| as real
    decreases |xs|
  {
    if |xs| == 0 then 0.0 else xs[0] + Sum(xs[1..])
  }

  /** A mean of shares is a share. */
  function Mean(s: real, n: nat): (r: real)
    requires 0 < n && 0.0 <= s <= n as real
    ensures 0.0 <= r <= 1.0
    ensures r * n as real == s
  {
    var r := s / n as real;
    assert r * n as real == s;
    r
  }

  datatype Report =
    | NoCases     // `{"error": "No golden cases found"}`
    | Summary(
        totalCases: nat,
        severityAccuracy: real,
        categoryAccuracy: real,
        avgProcessingTime: real,
        avgRootCausePrecision: real,
        individualResults: seq<CaseResult>)

  /** `sum(1 for r in results if r[flag]) / len(results)`. */
  function Accuracy(rs: seq<CaseResult>, flag: CaseResult -> bool): (r: real)
    requires |rs| > 0
    ensures 0.0 <= r <= 1.0
    ensures r == 1.0 <==> forall i :: 0 <= i < |rs| ==> flag(rs[i])
    ensures r == 0.0 <==> forall i :: 0 <= i < |rs| ==> !flag(rs[i])
    ensures r == Count(rs, flag) as real / |rs| as real
  {
    CountFull(rs, flag);
    CountEmpty(rs, flag);
    Fraction(Count(rs, flag), |rs|)
  }

  predicate SeverityMatched(e: CaseResult) { e.severityMatch }

  predicate CategoryMatched(e: CaseResult) { e.categoryMatch }

  /** `[r["root_cause_overlap"] for r in results]`. */
  function Overlaps(rs: seq<CaseResult>): (r: seq<real>)
    ensures |r| == |rs| && forall i :: 0 <= i < |rs| ==> r[i] == rs[i].overlap
  {
    seq(|rs|, i requires 0 <= i < |rs| => rs[i].overlap)
  }

  /** `[r["processing_time"] for r in results]`. */
  function Times(rs: seq<CaseResult>): (r: seq<real>)
    ensures |r| == |rs| && forall i :: 0 <= i < |rs| ==> r[i] == rs[i].processingTime
  {
    seq(|rs|, i requires 0 <= i < |rs| => rs[i].processingTime)
  }

  /** The mean root-cause overlap: a share, because every overlap is one. */
  function MeanOverlap(rs: seq<CaseResult>): (r: real)
    requires |rs| > 0 && forall i :: 0 <= i < |rs| ==> Consistent(rs[i])
    ensures 0.0 <= r <= 1.0
    ensures r == Sum(Overlaps(rs)) / |rs| as real
  {
    var overlaps := Overlaps(rs);
    forall i | 0 <= i < |rs|
      ensures 0.0 <= overlaps[i] <= 1.0
    {
      assert Consistent(rs[i]);
    }
    Mean(Sum(overlaps), |rs|)
  }

  /** The aggregate block of the report over a non-empty list of case results. */
  function Summarise(rs: seq<CaseResult>): (r: Report)
    requires |rs| > 0 && forall i :: 0 <= i < |rs| ==> Consistent(rs[i])
    ensures r.Summary? && r.totalCases == |rs| && r.individualResults == rs
    ensures 0.0 <= r.severityAccuracy <= 1.0 && 0.0 <= r.categoryAccuracy <= 1.0
    ensures r.severityAccuracy == 1.0 <==> forall i :: 0 <= i < |rs| ==> rs[i].severityMatch
    ensures r.severityAccuracy == 0.0 <==> forall i :: 0 <= i < |rs| ==> !rs[i].severityMatch
    ensures r.categoryAccuracy == 1.0 <==> forall i :: 0 <= i < |rs| ==> rs[i].categoryMatch
    ensures r.categoryAccuracy == 0.0 <==> forall i :: 0 <= i < |rs| ==> !rs[i].categoryMatch
    ensures r.severityAccuracy == Count(rs, SeverityMatched) as real / |rs| as real
    ensures r.categoryAccuracy == Count(rs, CategoryMatched) as real / |rs| as real
    ensures r.avgProcessingTime == Sum(Times(rs)) / |rs| as real
    ensures 0.0 <= r.avgRootCausePrecision <= 1.0
    ensures r.avgRootCausePrecision == Sum(Overlaps(rs)) / |rs| as real
  {
    var avgTime := Sum(Times(rs)) / |rs| as real;
    Summary(|rs|, Accuracy(rs, SeverityMatched), Accuracy(rs, CategoryMatched), avgTime, MeanOverlap(rs), rs)
  }

  /** `evaluate_all()` over the loaded cases. */
  function EvaluateAll(cases: seq<Json>, triage: IncidentContext -> Result<TriageResult>): (r: Result<Report>)
    ensures r == Ok(NoCases) <==> |cases| == 0
    ensures r.Ok? <==> forall i :: 0 <= i < |cases| ==> EvaluateCase(cases[i], triage).Ok?
    ensures r.Ok? && |cases| > 0 ==>
      && r.value.Summary? && r.value.totalCases == |cases| && |r.value.individualResults| == |cases|
      && 0.0 <= r.value.severityAccuracy <= 1.0 && 0.0 <= r.value.categoryAccuracy <= 1.0
      && 0.0 <= r.value.avgRootCausePrecision <= 1.0
    ensures r.Ok? && |cases| > 0 ==>
      forall i :: 0 <= i < |cases| ==> Ok(r.value.individualResults[i]) == EvaluateCase(cases[i], triage)
    ensures r.Ok? && |cases| > 0 ==>
      && (forall i :: 0 <= i < |cases| ==> Consistent(r.value.individualResults[i]))
      && r.value == Summarise(r.value.individualResults)
  {
    if |cases| == 0 then Ok(NoCases)
    else
      var rs :- EvaluateCases(cases, triage);
      Ok(Summarise(rs))
  }

  /** Severity accuracy is 1 exactly when every case's triaged severity equals its ground truth. */
  lemma PerfectSeverityAccuracy(cases: seq<Json>, triage: IncidentContext -> Result<TriageResult>)
    requires |cases| > 0 && EvaluateAll(cases, triage).Ok?
    ensures EvaluateAll(cases, triage).value.severityAccuracy == 1.0 <==>
      forall i :: 0 <= i < |cases| ==>
        EvaluateCase(cases[i], triage).value.actualSeverity == JStr(EvaluateCase(cases[i], triage).value.predictedSeverity)
  {
    var rs := EvaluateCases(cases, triage).value;
    assert EvaluateAll(cases, triage) == Ok(Summarise(rs));
    SeverityMatches(cases, triage, rs);
  }

  /** The severity flags of the evaluated cases are exactly the equalities of their severities. */
  lemma SeverityMatches(cases: seq<Json>, triage: IncidentContext -> Result<TriageResult>, rs: seq<CaseResult>)
    requires |rs| == |cases| && forall i :: 0 <= i < |cases| ==> Ok(rs[i]) == EvaluateCase(cases[i], triage)
    ensures (forall i :: 0 <= i < |rs| ==> rs[i].severityMatch) <==>
      forall i :: 0 <= i < |cases| ==>
        EvaluateCase(cases[i], triage).value.actualSeverity == JStr(EvaluateCase(cases[i], triage).value.predictedSeverity)
  {
    forall i | 0 <= i < |cases|
      ensures rs[i].severityMatch <==>
        EvaluateCase(cases[i], triage).value.actualSeverity == JStr(EvaluateCase(cases[i], triage).value.predictedSeverity)
    {
      assert Ok(rs[i]) == EvaluateCase(cases[i], triage);
    }
  }
}

=== FILE: Fences.dfy ===
/** Clean-up of backend replies before JSON decoding: removing Markdown code fences. The classifier
    drops the first and last line of a fenced reply; the other stages drop every fence line. */
module Fences {
  import opened Text
  import opened Lists

  /** `response.strip()`, and when that starts with a code fence, the lines between its first and
      last line (`"\n".join(lines[1:-1])`). */
  function StripOuterFence(reply: string): (r: string)
    ensures !StartsWith(Strip(reply), "```") ==> r == Strip(reply)
    ensures StartsWith(Strip(reply), "```") && |Split(Strip(reply), "\n")| < 3 ==> r == ""
    ensures StartsWith(Strip(reply), "```") && |Split(Strip(reply), "\n")| >= 3 ==>
      var lines := Split(Strip(reply), "\n");
      Strip(reply) == lines[0] + "\n" + r + "\n" + lines[|lines| - 1]
  {
    var t := Strip(reply);
    if StartsWith(t, "```") then
      if |Split(t, "\n")| >= 3 then InnerLinesFrame(t); InnerLines(t) else InnerLines(t)
    else t
  }

  /** The lines of `t` between its first and its last, joined again; nothing when `t` has fewer
      than three lines. */
  function InnerLines(t: string): string
  {
    var lines := Split(t, "\n");
    if |lines| < 3 then "" else Join("\n", lines[1..|lines| - 1])
  }

  /** Around the inner lines sit exactly the first line and the last line. */
  lemma InnerLinesFrame(t: string)
    requires |Split(t, "\n")| >= 3
    ensures var lines := Split(t, "\n");
      t == lines[0] + "\n" + InnerLines(t) + "\n" + lines[|lines| - 1]
  {
    var lines := Split(t, "\n");
    assert InnerLines(t) == Join("\n", lines[1..|lines| - 1]);
    JoinSplit(t, "\n");
    JoinFrame(t, lines, InnerLines(t));
  }

  /** A text joined from three or more lines is its first line, the joined inner lines and its last
      line, separated by line breaks. */
  lemma JoinFrame(t: string, lines: seq<string>, inner: string)
    requires |lines| >= 3 && Join("\n", lines) == t && inner == Join("\n", lines[1..|lines| - 1])
    ensures t == lines[0] + "\n" + inner + "\n" + lines[|lines| - 1]
  {
    JoinInner("\n", lines);
  }

  /** The lines of a fenced reply: the opening fence line, the body's lines, the closing fence. */
  lemma FencedLines(lang: string, body: string)
    requires '\n' !in lang
    ensures var t := "```" + lang + "\n" + body + "\n```";
      && Strip(t) == t && StartsWith(t, "```")
      && Split(t, "\n") == ["```" + lang] + (Split(body, "\n") + ["```"])
  {
    var t := "```" + lang + "\n" + body + "\n```";
    StripClean(t);
    assert t == ("```" + lang) + ['\n'] + (body + ['\n'] + "```");
    SplitFirstLine("```" + lang, '\n', body + ['\n'] + "```");
    SplitLastLine(body, '\n', "```");
  }

  /** A stripped fenced reply loses exactly its first and last line. */
  lemma OuterFenceInner(t: string, first: string, inner: seq<string>, last: string)
    requires Strip(t) == t && StartsWith(t, "```") && Split(t, "\n") == [first] + (inner + [last])
    requires |inner| >= 1
    ensures StripOuterFence(t) == Join("\n", inner)
  {
    StrippedFence(t);
    InnerLinesOf(t, first, inner, last);
  }

  /** Of a reply already stripped that opens a fence, `StripOuterFence` keeps the inner lines. */
  lemma StrippedFence(t: string)
    requires Strip(t) == t && StartsWith(t, "```")
    ensures StripOuterFence(t) == InnerLines(t)
  {
  }

  lemma InnerLinesOf(t: string, first: string, inner: seq<string>, last: string)
    requires Split(t, "\n") == [first] + (inner + [last]) && |inner| >= 1
    ensures InnerLines(t) == Join("\n", inner)
  {
    var lines := Split(t, "\n");
    assert lines[1..|lines| - 1] == inner;
  }

  /** A fenced reply `` ```lang\n<body>\n``` `` gives back exactly its body. */
  lemma FenceRoundTrip(lang: string, body: string)
    requires '\n' !in lang
    ensures StripOuterFence("```" + lang + "\n" + body + "\n```") == body
  {
    FencedLines(lang, body);
    OuterFenceInner("```" + lang + "\n" + body + "\n```", "```" + lang, Split(body, "\n"), "```");
    JoinSplit(body, "\n");
  }

  predicate FenceLine(l: string)
  {
    StartsWith(Strip(l), "```")
  }

  predicate PlainLine(l: string)
  {
    !FenceLine(l)
  }

  /** `response.strip()`, and when that starts with a code fence, every line that is a fence line
      (after stripping) removed. */
  function StripFenceLines(reply: string): (r: string)
    ensures !FenceLine(reply) ==> r == Strip(reply)
    ensures FenceLine(reply) ==> r == Join("\n", Filter(Split(Strip(reply), "\n"), PlainLine))
  {
    var t := Strip(reply);
    if StartsWith(t, "```") then Join("\n", Filter(Split(t, "\n"), PlainLine)) else t
  }

  /** A fenced reply gives back exactly its body when no body line is itself a fence line. */
  lemma FenceLinesRoundTrip(lang: string, body: string)
    requires '\n' !in lang
    requires forall i :: 0 <= i < |Split(body, "\n")| ==> PlainLine(Split(body, "\n")[i])
    ensures StripFenceLines("```" + lang + "\n" + body + "\n```") == body
  {
    FencedLines(lang, body);
    FenceOpens(lang);
    FenceOpens("");
    assert "```" + "" == "```";
    DropFenceLines("```" + lang, Split(body, "\n"), "```");
    JoinSplit(body, "\n");
  }

  lemma FenceOpens(lang: string)
    ensures FenceLine("```" + lang)
  {
    var l := "```" + lang;
    assert !IsSpace(l[0]);
    assert LeadingSpace(l) == 0;
    var r := Strip(l);
    var i := LeadingSpace(l);
    forall k | |r| <= k < |l| ensures IsSpace(l[k]) {
      assert l[|r|..][k - |r|] == l[k];
    }
    assert !IsSpace(l[2]);
    assert r[..3] == l[..3];
  }

  /** Filtering out the opening and closing fence lines leaves the inner lines when none of them is
      a fence line. */
  lemma DropFenceLines(first: string, lines: seq<string>, last: string)
    requires FenceLine(first) && FenceLine(last)
    requires forall i :: 0 <= i < |lines| ==> PlainLine(lines[i])
    ensures Filter([first] + (lines + [last]), PlainLine) == lines
  {
    FilterAppend([first], lines + [last], PlainLine);
    FilterAppend(lines, [last], PlainLine);
    FilterAll(lines, PlainLine);
    assert Filter([last], PlainLine) == [];
    assert Filter([first], PlainLine) == [];
  }
}

=== FILE: Json.dfy ===
/** Decoded JSON values as the pipeline sees them after `json.loads`, with the Python idioms the
    stages apply to them: truthiness, `dict.get`, iteration expecting dictionaries, and f-string
    rendering. */
module Json {
  import opened Wrappers

  /** JSON numbers (Python `int` and `float`) are modelled as reals; objects as maps. */
  datatype Json =
    | JNull
    | JBool(b: bool)
    | JNum(n: real)
    | JStr(s: string)
    | JArr(items: seq<Json>)
    | JObj(fields: map<string, Json>)

  type Object = map<string, Json>

  /** Python truthiness of a decoded value. */
  predicate Truthy(j: Json)
  {
    match j
    case JNull => false
    case JBool(b) => b
    case JNum(n) => n != 0.0
    case JStr(s) => |s| > 0
    case JArr(a) => |a| > 0
    case JObj(m) => |m| > 0
  }

  /** Python's `d.get(k, default)`. */
  function GetOr(d: Object, k: string, default: Json): (r: Json)
    ensures k in d ==> r == d[k]
    ensures k !in d ==> r == default
  {
    if k in d then d[k] else default
  }

  /** Python's `d.get(k)`: `None` both for a missing key and for a JSON `null`. */
  function Get(d: Object, k: string): Json
  {
    GetOr(d, k, JNull)
  }

  /** Python's `d[k]`: a `KeyError` when the key is missing. */
  function Index(d: Object, k: string): (r: Result<Json>)
    ensures r.Ok? <==> k in d
    ensures r.Ok? ==> r.value == d[k]
  {
    if k in d then Ok(d[k]) else Err(KeyError)
  }

  /** Values Python's `len()` accepts: strings, lists and dictionaries. */
  predicate Sized(j: Json)
  {
    j.JStr? || j.JArr? || j.JObj?
  }

  /** Python values that `set()` can hold: everything but lists and dictionaries. */
  predicate Hashable(j: Json)
  {
    !j.JArr? && !j.JObj?
  }

  /** The dictionaries met by `for x in v` when the loop body then calls `x.get(...)` or `x[...]`.
      Only a list of dictionaries gets through, plus the empty string and the empty dictionary,
      whose loops run zero times; every other value raises before or inside the loop. */
  function Dicts(v: Json): (r: Result<seq<Object>>)
    ensures v.JArr? ==> (r.Ok? <==> forall i :: 0 <= i < |v.items| ==> v.items[i].JObj?)
    ensures r.Ok? && v.JArr? ==> |r.value| == |v.items| && forall i :: 0 <= i < |v.items| ==> v.items[i] == JObj(r.value[i])
    ensures r.Ok? && !v.JArr? ==> r.value == []
    ensures (v.JNull? || v.JBool? || v.JNum?) ==> r.Err?
  {
    match v
    case JArr(a) =>
      if forall i :: 0 <= i < |a| ==> a[i].JObj? then
        Ok(seq(|a|, i requires 0 <= i < |a| && a[i].JObj? => a[i].fields))
      else
        Err(TypeError)
    case JStr(s) => if |s| == 0 then Ok([]) else Err(TypeError)
    case JObj(m) => if |m| == 0 then Ok([]) else Err(TypeError)
    case _ => Err(TypeError)
  }

  /** Python's `f"{v}"`: a string renders as itself; any other value through `show`, which stands for
      Python's `str()` of that value. */
  function Render(v: Json, show: Json -> string): string
  {
    if v.JStr? then v.s else show(v)
  }
}

=== FILE: Lists.dfy ===
/** Generic sequence operations that mirror Python list idioms used by the pipeline:
    slicing, counting, order-preserving filtering and `list(set(...))`. */
module Lists {

  /** Python's `xs[:k]`, including its meaning for a negative `k` (drop `-k` items from the end). */
  function Take<T>(xs: seq<T>, k: int): (r: seq<T>)
    ensures 0 <= k ==> |r| == if k < |xs| then k else |xs|
    ensures k < 0 ==> |r| == if |xs| + k < 0 then 0 else |xs| + k
    ensures r <= xs
  {
    if 0 <= k then
      if k < |xs| then xs[..k] else xs
    else
      if |xs| + k < 0 then [] else xs[..|xs| + k]
  }

  /** Indices of `xs` whose element satisfies `p`. */
  ghost function Hits<T>(xs: seq<T>, p: T -> bool): set<nat>
  {
    set i: nat | i < |xs| && p(xs[i])
  }

  /** Number of elements of `xs` satisfying `p` (Python's `sum(1 for x in xs if p(x))`). */
  function Count<T>(xs: seq<T>, p: T -> bool): (n: nat)
    ensures n <= |xs|
    ensures n == |Hits(xs, p)|
    decreases |xs|
  {
    if |xs| == 0 then
      assert Hits(xs, p) == {};
      0
    else
      var init := xs[..|xs| - 1];
      var n0 := Count(init, p);
      var last := |xs| - 1;
      assert Hits(xs, p) == Hits(init, p) + (if p(xs[last]) then {last} else {}) by {
        forall i: nat | i < |xs| ensures i in Hits(xs, p) <==> i in Hits(init, p) + (if p(xs[last]) then {last} else {}) {
          if i < last { assert xs[i] == init[i]; }
        }
      }
      assert last !in Hits(init, p);
      n0 + (if p(xs[last]) then 1 else 0)
  }

  /** Every element is counted exactly when every element satisfies `p`. */
  lemma {:induction false} CountFull<T>(xs: seq<T>, p: T -> bool)
    ensures Count(xs, p) == |xs| <==> forall i :: 0 <= i < |xs| ==> p(xs[i])
    decreases |xs|
  {
    if |xs| > 0 {
      var init := xs[..|xs| - 1];
      CountFull(init, p);
      assert forall i :: 0 <= i < |init| ==> init[i] == xs[i];
    }
  }

  /** Nothing is counted exactly when no element satisfies `p`. */
  lemma {:induction false} CountEmpty<T>(xs: seq<T>, p: T -> bool)
    ensures Count(xs, p) == 0 <==> forall i :: 0 <= i < |xs| ==> !p(xs[i])
    decreases |xs|
  {
    if |xs| > 0 {
      var init := xs[..|xs| - 1];
      CountEmpty(init, p);
      assert forall i :: 0 <= i < |init| ==> init[i] == xs[i];
    }
  }

  /** Two lists whose elements agree position by position on their predicates have equal counts. */
  lemma CountAgrees<T, U>(xs: seq<T>, p: T -> bool, ys: seq<U>, q: U -> bool)
    requires |xs| == |ys| && forall i :: 0 <= i < |xs| ==> p(xs[i]) == q(ys[i])
    ensures Count(xs, p) == Count(ys, q)
  {
    assert Hits(xs, p) == Hits(ys, q);
  }

  /** Elements of `xs` satisfying `p`, in their original order (a Python list comprehension with `if`). */
  function Filter<T(!new)>(xs: seq<T>, p: T -> bool): (r: seq<T>)
    ensures forall x :: x in r <==> x in xs && p(x)
    ensures |r| <= |xs|
    decreases |xs|
  {
    if |xs| == 0 then []
    else
      assert forall x :: x in xs <==> x == xs[0] || x in xs[1..];
      (if p(xs[0]) then [xs[0]] else []) + Filter(xs[1..], p)
  }

  /** Filtering distributes over concatenation, so it keeps the relative order of what it keeps. */
  lemma {:induction false} FilterAppend<T(!new)>(xs: seq<T>, ys: seq<T>, p: T -> bool)
    ensures Filter(xs + ys, p) == Filter(xs, p) + Filter(ys, p)
    decreases |xs|
  {
    if |xs| == 0 {
      assert xs + ys == ys;
    } else {
      assert (xs + ys)[0] == xs[0];
      assert (xs + ys)[1..] == xs[1..] + ys;
      FilterAppend(xs[1..], ys, p);
    }
  }

  /** A relation that holds between every earlier and later element of `xs` also holds on any
      filtered list: filtering never reorders. */
  lemma {:induction false} FilterKeepsPairwise<T(!new)>(xs: seq<T>, p: T -> bool, rel: (T, T) -> bool)
    requires forall i, j :: 0 <= i < j < |xs| ==> rel(xs[i], xs[j])
    ensures forall i, j :: 0 <= i < j < |Filter(xs, p)| ==> rel(Filter(xs, p)[i], Filter(xs, p)[j])
    decreases |xs|
  {
    if |xs| > 0 {
      var tail := xs[1..];
      FilterKeepsPairwise(tail, p, rel);
      var ft := Filter(tail, p);
      forall y | y in ft ensures rel(xs[0], y) {
        var k :| 0 <= k < |tail| && tail[k] == y;
        assert xs[k + 1] == y;
      }
    }
  }

  /** Filtering with a predicate every element satisfies changes nothing. */
  lemma {:induction false} FilterAll<T(!new)>(xs: seq<T>, p: T -> bool)
    requires forall i :: 0 <= i < |xs| ==> p(xs[i])
    ensures Filter(xs, p) == xs
    decreases |xs|
  {
    if |xs| > 0 {
      FilterAll(xs[1..], p);
    }
  }

  /** Filtering with a predicate no element satisfies leaves nothing. */
  lemma {:induction false} FilterNone<T(!new)>(xs: seq<T>, p: T -> bool)
    requires forall i :: 0 <= i < |xs| ==> !p(xs[i])
    ensures Filter(xs, p) == []
    decreases |xs|
  {
    if |xs| > 0 {
      FilterNone(xs[1..], p);
    }
  }

  /** No value occurs twice. */
  predicate NoDuplicates<T(==)>(xs: seq<T>)
  {
    forall i, j :: 0 <= i < j < |xs| ==> xs[i] != xs[j]
  }

  /** A duplicate-free list with the same members as `xs`: the first occurrence of each value, in order.
      Python's `list(set(xs))` promises the same members and no duplicates, in an unspecified order. */
  function Dedup<T(==,!new)>(xs: seq<T>): (r: seq<T>)
    ensures forall x :: x in r <==> x in xs
    ensures NoDuplicates(r)
    ensures |r| <= |xs|
    decreases |xs|
  {
    if |xs| == 0 then []
    else
      var rest := Dedup(xs[..|xs| - 1]);
      if xs[|xs| - 1] in rest then rest else rest + [xs[|xs| - 1]]
  }
}

=== FILE: Mitigation.dfy ===
/** The mitigation stage: quote the "Immediate Mitigation" sections of the top two grounding runbooks,
    summarise the root causes, ask the backend for a plan, and attach the de-duplicated citations of
    the plan's steps and of the grounding runbooks. */
module Mitigation {
  import opened Wrappers
  import opened Text
  import opened Json
  import opened Oracles
  import opened Models
  import opened Lists
  import opened Fences

  const MitigationHeading := "## Immediate Mitigation"

  const StepsHeader := "\n\n--- MITIGATION STEPS FROM RUNBOOKS ---\n"

  // ---- Runbook excerpts ----

  /** The quoted mitigation steps of one runbook, read again from its file: nothing when the file
      cannot be read, is empty, or has no "Immediate Mitigation" heading. */
  function StepsFrom(rb: RunbookRef, read: string -> Option<string>): (r: string)
    ensures (read(rb.path).None? || !Contains(read(rb.path).value, MitigationHeading)) ==> r == ""
    ensures read(rb.path).Some? && Contains(read(rb.path).value, MitigationHeading) ==>
      var x := SectionAfter(read(rb.path).value, MitigationHeading);
      r == "\nFrom: " + rb.title + "\n" + x + "\n" && !Contains(x, "##")
  {
    match read(rb.path)
    case Some(content) =>
      if |content| > 0 && Contains(content, MitigationHeading) then
        SectionAfterShape(content, MitigationHeading);
        "\nFrom: " + rb.title + "\n" + SectionAfter(content, MitigationHeading) + "\n"
      else ""
    case None => ""
  }

  function AllSteps(rbs: seq<RunbookRef>, read: string -> Option<string>): string
    decreases |rbs|
  {
    if |rbs| == 0 then "" else StepsFrom(rbs[0], read) + AllSteps(rbs[1..], read)
  }

  /** The runbook part of the prompt: empty exactly when no runbook grounds the analysis; otherwise a
      header followed by the steps of at most the first two runbooks. */
  function Excerpts(rbs: seq<RunbookRef>, read: string -> Option<string>): (r: string)
    ensures r == "" <==> |rbs| == 0
    ensures |rbs| > 0 ==> r == StepsHeader + AllSteps(Take(rbs, 2), read)
  {
    if |rbs| == 0 then "" else StepsHeader + AllSteps(Take(rbs, 2), read)
  }

  /** Runbooks after the second never reach the prompt. */
  lemma ExcerptsUseTopTwo(rbs: seq<RunbookRef>, more: seq<RunbookRef>, read: string -> Option<string>)
    requires |rbs| >= 2
    ensures Excerpts(rbs + more, read) == Excerpts(rbs, read)
  {
    assert Take(rbs + more, 2) == Take(rbs, 2) by {
      assert Take(rbs + more, 2) <= rbs + more && Take(rbs, 2) <= rbs;
      assert Take(rbs + more, 2) == (rbs + more)[..2] == rbs[..2] == Take(rbs, 2);
    }
  }

  // ---- Root-cause summary ----

  /** `f"{x:.0%}"`: numbers and booleans format; any other value raises. */
  function Percent(v: Json, percent0: real -> string): (r: Result<string>)
    ensures r.Ok? <==> v.JNum? || v.JBool?
    ensures v.JNum? ==> r == Ok(percent0(v.n))
    ensures v.JBool? ==> r == Ok(percent0(if v.b then 1.0 else 0.0))
  {
    match v
    case JNum(n) => Ok(percent0(n))
    case JBool(b) => Ok(percent0(if b then 1.0 else 0.0))
    case _ => Err(TypeError)
  }

  /** A root cause renders when it has a `cause` and a number-like `likelihood`. */
  predicate Summarisable(rc: Object)
  {
    "cause" in rc && "likelihood" in rc && (rc["likelihood"].JNum? || rc["likelihood"].JBool?)
  }

  /** `- {cause} (likelihood: {likelihood:.0%})` for each root cause, in order. */
  function CauseLines(rcs: seq<Object>, o: Oracles): (r: Result<seq<string>>)
    ensures r.Ok? <==> forall i :: 0 <= i < |rcs| ==> Summarisable(rcs[i])
    ensures r.Ok? ==> |r.value| == |rcs|
    ensures r.Ok? ==> forall i :: 0 <= i < |rcs| ==>
      r.value[i] == "- " + Render(rcs[i]["cause"], o.show) + " (likelihood: " + Percent(rcs[i]["likelihood"], o.percent0).value + ")"
    decreases |rcs|
  {
    if |rcs| == 0 then Ok([])
    else
      var rc := rcs[0];
      var cause :- Index(rc, "cause");
      var likelihood :- Index(rc, "likelihood");
      var pct :- Percent(likelihood, o.percent0);
      var rest :- CauseLines(rcs[1..], o);
      Ok(["- " + Render(cause, o.show) + " (likelihood: " + pct + ")"] + rest)
  }

  /** The root-cause summary: one line per root cause, joined with newlines. */
  function CauseSummary(rootCauses: Json, o: Oracles): (r: Result<string>)
    ensures r.Ok? <==> Dicts(rootCauses).Ok? && forall i :: 0 <= i < |Dicts(rootCauses).value| ==> Summarisable(Dicts(rootCauses).value[i])
    ensures r.Ok? ==> r.value == Join("\n", CauseLines(Dicts(rootCauses).value, o).value)
  {
    var rcs :- Dicts(rootCauses);
    var lines :- CauseLines(rcs, o);
    Ok(Join("\n", lines))
  }

  // ---- The prompt ----

  function Prompt(c: IncidentContext, severity: string, category: string, summary: string, excerpts: string,
                  metricsJson: map<string, real> -> string): string
  {
    var a := c.alert;
    "\nIncident Context:\n- Alert: " + a.alertName
    + "\n- Severity: " + severity
    + "\n- Category: " + category
    + "\n- Affected Services: " + Join(", ", a.affectedServices)
    + "\n\nRoot Causes Identified:\n" + summary
    + "\n\nMetrics:\n" + metricsJson(a.metrics)
    + "\n\n" + excerpts
    + "\n\nGenerate a detailed mitigation plan:"
  }

  /** The backend call: the mitigation persona at temperature 0.2 with at most 2000 tokens. */
  function PlanRequest(c: IncidentContext, severity: string, category: string, summary: string,
                       rbs: seq<RunbookRef>, o: Oracles): (q: Request)
    ensures q.persona == MitigationPersona && q.temperature == 0.2 && q.maxTokens == Some(2000)
  {
    Request(Prompt(c, severity, category, summary, Excerpts(rbs, o.read), o.metricsJson), MitigationPersona, 0.2, Some(2000))
  }

  // ---- Citations ----

  /** The truthy `citation` values of a list of steps, in order. */
  function CitationsOf(items: seq<Object>): (r: seq<Json>)
    ensures forall v :: v in r <==> exists i :: 0 <= i < |items| && "citation" in items[i] && items[i]["citation"] == v && Truthy(v)
    decreases |items|
  {
    if |items| == 0 then []
    else
      var rest := CitationsOf(items[1..]);
      assert forall i :: 1 <= i < |items| ==> items[i] == items[1..][i - 1];
      assert forall v :: v in rest <==> exists i :: 1 <= i < |items| && "citation" in items[i] && items[i]["citation"] == v && Truthy(v) by {
        forall v ensures v in rest ==> exists i :: 1 <= i < |items| && "citation" in items[i] && items[i]["citation"] == v && Truthy(v) {
          if v in rest {
            var j :| 0 <= j < |items[1..]| && "citation" in items[1..][j] && items[1..][j]["citation"] == v && Truthy(v);
            assert items[j + 1] == items[1..][j];
          }
        }
      }
      var c := Get(items[0], "citation");
      (if Truthy(c) then [c] else []) + rest
  }

  function Titles(rbs: seq<RunbookRef>): (r: seq<Json>)
    ensures |r| == |rbs| && forall i :: 0 <= i < |rbs| ==> r[i] == JStr(rbs[i].title)
  {
    seq(|rbs|, i requires 0 <= i < |rbs| => JStr(rbs[i].title))
  }

  /** Every citation gathered before de-duplication, in gathering order. */
  function Gathered(actions: seq<Object>, steps: seq<Object>, rbs: seq<RunbookRef>): seq<Json>
  {
    CitationsOf(actions) + CitationsOf(steps) + Titles(rbs)
  }

  /** `list(set(citations))`: the truthy citations of the immediate actions and the investigation
      steps plus every runbook title, each once; an unhashable citation raises. */
  function Citations(m: Object, rbs: seq<RunbookRef>): (r: Result<seq<Json>>)
    ensures r.Ok? ==> Dicts(GetOr(m, "immediate_actions", JArr([]))).Ok? && Dicts(GetOr(m, "investigation_steps", JArr([]))).Ok?
    ensures r.Ok? ==>
      var g := Gathered(Dicts(GetOr(m, "immediate_actions", JArr([]))).value, Dicts(GetOr(m, "investigation_steps", JArr([]))).value, rbs);
      (forall v :: v in r.value <==> v in g) && NoDuplicates(r.value)
    ensures r.Ok? ==> forall i :: 0 <= i < |rbs| ==> JStr(rbs[i].title) in r.value
    ensures r.Err? <==>
      || Dicts(GetOr(m, "immediate_actions", JArr([]))).Err?
      || Dicts(GetOr(m, "investigation_steps", JArr([]))).Err?
      || exists v :: v in Gathered(Dicts(GetOr(m, "immediate_actions", JArr([]))).value,
                                   Dicts(GetOr(m, "investigation_steps", JArr([]))).value, rbs) && !Hashable(v)
  {
    var actions :- Dicts(GetOr(m, "immediate_actions", JArr([])));
    var steps :- Dicts(GetOr(m, "investigation_steps", JArr([])));
    var g := Gathered(actions, steps, rbs);
    assert forall i :: 0 <= i < |rbs| ==> JStr(rbs[i].title) in g by {
      forall i | 0 <= i < |rbs| ensures JStr(rbs[i].title) in g {
        assert Titles(rbs)[i] == JStr(rbs[i].title);
        assert g[|CitationsOf(actions) + CitationsOf(steps)| + i] == Titles(rbs)[i];
      }
    }
    if forall v :: v in g ==> Hashable(v) then Ok(Dedup(g)) else Err(TypeError)
  }

  // ---- The reply ----

  /** The plan returned when the reply is not JSON: one manual-review action, no investigation steps,
      escalation to the on-call engineer, and no citations. */
  const FallbackPlan: Object := map[
    "immediate_actions" := JArr([JObj(map[
      "step" := JStr("Review incident details manually"),
      "command" := JNull,
      "expected_outcome" := JStr("Better understanding of the issue"),
      "citation" := JStr("Default fallback")])]),
    "investigation_steps" := JArr([]),
    "escalation" := JObj(map[
      "when" := JStr("If issue persists after 30 minutes"),
      "who" := JStr("On-call engineer"),
      "channel" := JStr("#incidents")]),
    "summary" := JStr("Mitigation plan generation failed - manual intervention required"),
    "citations" := JArr([])]

  /** The reply handling of `generate_plan`: undecodable text gives the fallback plan; a decoded
      object gets its citations attached; any other decoded value fails at `result.get`. */
  function PlanReply(reply: string, parse: string -> Option<Json>, rbs: seq<RunbookRef>): (r: Result<Object>)
    ensures parse(StripFenceLines(reply)).None? ==> r == Ok(FallbackPlan)
    ensures parse(StripFenceLines(reply)).Some? && !parse(StripFenceLines(reply)).value.JObj? ==> r.Err?
    ensures parse(StripFenceLines(reply)).Some? && parse(StripFenceLines(reply)).value.JObj? ==>
      var m := parse(StripFenceLines(reply)).value.fields;
      && (r.Ok? <==> Citations(m, rbs).Ok?)
      && (r.Ok? ==> r.value == m["citations" := JArr(Citations(m, rbs).value)])
  {
    match parse(StripFenceLines(reply))
    case None => Ok(FallbackPlan)
    case Some(JObj(m)) =>
      var cites :- Citations(m, rbs);
      Ok(m["citations" := JArr(cites)])
    case Some(_) => Err(TypeError)
  }

  /** `generate_plan(incident, severity, category, root_causes, relevant_runbooks)`: the root-cause
      summary is built before the backend is called, so a malformed root cause fails the stage. */
  function GeneratePlan(c: IncidentContext, severity: string, category: string, rootCauses: Json,
                        rbs: seq<RunbookRef>, o: Oracles): (r: Result<Object>)
    ensures CauseSummary(rootCauses, o).Err? ==> r.Err?
    ensures CauseSummary(rootCauses, o).Ok? ==>
      var q := PlanRequest(c, severity, category, CauseSummary(rootCauses, o).value, rbs, o);
      && (o.generate(q).Err? ==> r.Err?)
      && (o.generate(q).Ok? ==> r == PlanReply(o.generate(q).value, o.parse, rbs))
  {
    var summary :- CauseSummary(rootCauses, o);
    var reply :- o.generate(PlanRequest(c, severity, category, summary, rbs, o));
    PlanReply(reply, o.parse, rbs)
  }
}

=== FILE: Models.dfy ===
/** The incident records exchanged by the pipeline, with the field defaults and the validation that
    constructing them applies (a failed validation is a `ValidationError`). */
module Models {
  import opened Wrappers
  import opened Json

  datatype IncidentAlert = IncidentAlert(
    incidentId: string,
    timestamp: string,
    source: string,
    alertName: string,
    description: string,
    metrics: map<string, real>,
    affectedServices: seq<string>,
    environment: string,
    tags: seq<string>)

  /** An alert plus the optional raw logs and operator notes. */
  datatype IncidentContext = IncidentContext(alert: IncidentAlert, logs: Option<string>, additionalContext: Option<string>)

  /** The projection of a retrieved runbook that travels with a result: title, path, similarity. */
  datatype RunbookRef = RunbookRef(title: string, path: string, similarity: real)

  /** The bound a `TriageResult` places on its confidence score. */
  type Confidence = x: real | 0.0 <= x <= 1.0

  datatype TriageResult = TriageResult(
    incidentId: string,
    severity: string,
    category: string,
    confidence: Confidence,
    rootCauses: seq<string>,
    mitigationPlan: string,
    relevantRunbooks: seq<RunbookRef>,
    citations: seq<string>,
    reasoning: Option<string>,
    processingTime: real,
    timestamp: string)

  const DefaultEnvironment := "production"

  /** A string-typed field: present and a JSON string. */
  function StrField(d: Object, k: string): (r: Result<string>)
    ensures r.Ok? <==> k in d && d[k].JStr?
    ensures r.Ok? ==> d[k] == JStr(r.value)
  {
    if k in d && d[k].JStr? then Ok(d[k].s) else Err(ValidationError)
  }

  predicate AllStrings(a: seq<Json>)
  {
    forall i :: 0 <= i < |a| ==> a[i].JStr?
  }

  /** A `List[str]` field value. */
  function StrList(v: Json): (r: Result<seq<string>>)
    ensures r.Ok? <==> v.JArr? && AllStrings(v.items)
    ensures r.Ok? ==> |r.value| == |v.items| && forall i :: 0 <= i < |v.items| ==> v.items[i] == JStr(r.value[i])
  {
    if v.JArr? && AllStrings(v.items) then
      Ok(seq(|v.items|, i requires 0 <= i < |v.items| && v.items[i].JStr? => v.items[i].s))
    else Err(ValidationError)
  }

  /** A `Dict[str, float]` field value. */
  function Metrics(v: Json): (r: Result<map<string, real>>)
    ensures r.Ok? <==> v.JObj? && forall k :: k in v.fields ==> v.fields[k].JNum?
    ensures r.Ok? ==> r.value.Keys == v.fields.Keys && forall k :: k in r.value ==> v.fields[k] == JNum(r.value[k])
  {
    if v.JObj? && forall k :: k in v.fields ==> v.fields[k].JNum? then
      Ok(map k | k in v.fields :: v.fields[k].n)
    else Err(ValidationError)
  }

  /** The five fields an alert cannot do without, each present and a string. */
  predicate RequiredAlertFields(d: Object)
  {
    && "incident_id" in d && d["incident_id"].JStr?
    && "timestamp" in d && d["timestamp"].JStr?
    && "source" in d && d["source"].JStr?
    && "alert_name" in d && d["alert_name"].JStr?
    && "description" in d && d["description"].JStr?
  }

  /** `IncidentAlert(**d)`: five required strings; metrics, affected services, environment and tags
      fall back to their defaults only when the key is missing (an explicit `null` is rejected);
      unknown keys are ignored. */
  function AlertFromFields(d: Object): (r: Result<IncidentAlert>)
    ensures r.Ok? <==>
      && RequiredAlertFields(d)
      && ("metrics" in d ==> Metrics(d["metrics"]).Ok?)
      && ("affected_services" in d ==> StrList(d["affected_services"]).Ok?)
      && ("environment" in d ==> d["environment"].JStr?)
      && ("tags" in d ==> StrList(d["tags"]).Ok?)
    ensures r.Ok? ==> JStr(r.value.incidentId) == d["incident_id"] && JStr(r.value.alertName) == d["alert_name"]
    ensures r.Ok? ==> JStr(r.value.description) == d["description"] && JStr(r.value.source) == d["source"]
    ensures r.Ok? ==> JStr(r.value.timestamp) == d["timestamp"]
  {
    var id :- StrField(d, "incident_id");
    var ts :- StrField(d, "timestamp");
    var src :- StrField(d, "source");
    var name :- StrField(d, "alert_name");
    var desc :- StrField(d, "description");
    var metrics :- if "metrics" in d then Metrics(d["metrics"]) else Ok(map[]);
    var services :- if "affected_services" in d then StrList(d["affected_services"]) else Ok([]);
    var env :- if "environment" in d then StrField(d, "environment") else Ok(DefaultEnvironment);
    var tags :- if "tags" in d then StrList(d["tags"]) else Ok([]);
    Ok(IncidentAlert(id, ts, src, name, desc, metrics, services, env, tags))
  }

  /** An alert given only its required fields gets empty metrics, services and tags and the
      "production" environment. */
  lemma AlertDefaults(d: Object)
    requires RequiredAlertFields(d)
    requires "metrics" !in d && "affected_services" !in d && "environment" !in d && "tags" !in d
    ensures AlertFromFields(d).Ok?
    ensures AlertFromFields(d).value.metrics == map[]
    ensures AlertFromFields(d).value.affectedServices == [] && AlertFromFields(d).value.tags == []
    ensures AlertFromFields(d).value.environment == "production"
  {
  }

  /** `IncidentContext(alert=alert)`: logs and additional context default to absent. */
  function ContextOf(alert: IncidentAlert): (c: IncidentContext)
    ensures c.alert == alert && c.logs.None? && c.additionalContext.None?
  {
    IncidentContext(alert, None, None)
  }

  /** Python truthiness of an `Optional[str]`: present and non-empty. */
  predicate Given(s: Option<string>)
  {
    s.Some? && |s.value| > 0
  }

  /** An `Optional[str]` field value. */
  function OptStr(v: Json): (r: Result<Option<string>>)
    ensures r.Ok? <==> v.JStr? || v.JNull?
    ensures r == Ok(None) <==> v.JNull?
  {
    match v
    case JStr(s) => Ok(Some(s))
    case JNull => Ok(None)
    case _ => Err(ValidationError)
  }

  /** The `confidence_score` field: a number with 0 <= x <= 1. */
  function ConfidenceScore(v: Json): (r: Result<Confidence>)
    ensures r.Ok? <==> v.JNum? && 0.0 <= v.n <= 1.0
    ensures r.Ok? ==> v == JNum(r.value)
  {
    if v.JNum? && 0.0 <= v.n <= 1.0 then Ok(v.n) else Err(ValidationError)
  }

  /** `TriageResult(...)`: validates the confidence bound, the string lists and the optional
      reasoning; everything else is stored as given. */
  function NewTriageResult(
    incidentId: string, severity: string, category: string, confidence: Json,
    rootCauses: seq<Json>, mitigationPlan: string, relevantRunbooks: seq<RunbookRef>,
    citations: seq<Json>, reasoning: Json, processingTime: real, now: string): (r: Result<TriageResult>)
    ensures r.Ok? <==> ConfidenceScore(confidence).Ok? && AllStrings(rootCauses) && AllStrings(citations) && OptStr(reasoning).Ok?
    ensures r.Ok? ==> JNum(r.value.confidence) == confidence
    ensures r.Ok? ==> |r.value.rootCauses| == |rootCauses| && forall i :: 0 <= i < |rootCauses| ==> rootCauses[i] == JStr(r.value.rootCauses[i])
    ensures r.Ok? ==> |r.value.citations| == |citations| && forall i :: 0 <= i < |citations| ==> citations[i] == JStr(r.value.citations[i])
    ensures r.Ok? ==> r.value.incidentId == incidentId && r.value.severity == severity && r.value.category == category
    ensures r.Ok? ==> r.value.mitigationPlan == mitigationPlan && r.value.relevantRunbooks == relevantRunbooks
    ensures r.Ok? ==> r.value.processingTime == processingTime && r.value.timestamp == now
    ensures r.Ok? ==> OptStr(reasoning) == Ok(r.value.reasoning)
  {
    var c :- ConfidenceScore(confidence);
    var causes :- StrList(JArr(rootCauses));
    var cites :- StrList(JArr(citations));
    var why :- OptStr(reasoning);
    Ok(TriageResult(incidentId, severity, category, c, causes, mitigationPlan, relevantRunbooks,
                    cites, why, processingTime, now))
  }
}

=== FILE: Oracles.dfy ===
/** The collaborators the pipeline calls but whose behaviour is not modelled: the text-generation
    backend, the JSON decoder, the sentence-embedding model, the square root, file reads and number
    formatting. Each is a total function supplied by the caller. */
module Oracles {
  import opened Wrappers
  import opened Json

  /** The fixed system prompt a stage sends; its wording instructs the backend and enforces nothing. */
  datatype Persona = ClassifierPersona | RootCausePersona | MitigationPersona

  /** One call of `generate(prompt, system_prompt, temperature, max_tokens)`; `maxTokens` is `None`
      when the backend's configured default applies. */
  datatype Request = Request(prompt: string, persona: Persona, temperature: real, maxTokens: Option<nat>)

  datatype Oracles = Oracles(
    generate: Request -> Result<string>,   // the backend reply, or the error it raised
    parse: string -> Option<Json>,         // `json.loads`; `None` is a `JSONDecodeError`
    embed: string -> seq<real>,            // the sentence-embedding model
    sqrt: real -> real,                    // `x ** 0.5` on a sum of squares
    read: string -> Option<string>,        // reading a runbook file by path; `None` when unreadable
    metricsJson: map<string, real> -> string,  // `json.dumps(metrics, indent=2)`
    fixed2: real -> string,                // `f"{x:.2f}"`
    percent0: real -> string,              // `f"{x:.0%}"`
    show: Json -> string                   // `str(v)` of a non-string value
  )
}

=== FILE: Orchestrator.dfy ===
/** The end-to-end pipeline: classify, analyse root causes, plan mitigation, render the plan as
    Markdown and validate the assembled `TriageResult`. Elapsed time and the result's timestamp are
    parameters. */
module Orchestrator {
  import opened Wrappers
  import opened Text
  import opened Json
  import opened Oracles
  import opened Models
  import opened VectorStore
  import Classifier
  import RootCause
  import Mitigation
  import Fences

  // ---- Rendering the plan ----

  /** The headings and labels of the plan, character for character as orchestrator.py:98-118 spells them: each
      emoji's UTF-8 bytes read back as Windows-1254 text, the bytes that code page leaves undefined
      dropped. */
  const ActionsHeader := "## \U{011F}\U{0178}\U{0161}\U{00A8} Immediate Actions\n\n"
  const ExpectedLabel := "\U{00E2}\U{0153}\U{2026} Expected: "
  const SourceLabel := "\U{011F}\U{0178}\U{201C}\U{2013} Source: "
  const InvestigationHeader := "\n## \U{011F}\U{0178}\U{201D} Investigation Steps\n\n"
  const StepSourceLabel := "   \U{011F}\U{0178}\U{201C}\U{2013} "
  const EscalationHeader := "\n## \U{011F}\U{0178}\U{201C} Escalation\n\n"

  /** An immediate action renders when it has a `step` and an `expected_outcome`. */
  predicate RenderableAction(a: Object)
  {
    "step" in a && "expected_outcome" in a
  }

  /** One immediate action, numbered `n`: bold step, optional command block, expected outcome,
      optional source, blank line. */
  function ActionText(a: Object, n: nat, show: Json -> string): (r: Result<string>)
    ensures r.Ok? <==> RenderableAction(a)
  {
    var step :- Index(a, "step");
    var command := if Truthy(Get(a, "command")) then "```bash\n" + Render(a["command"], show) + "\n```\n" else "";
    var expected :- Index(a, "expected_outcome");
    var source := if Truthy(Get(a, "citation")) then SourceLabel + Render(a["citation"], show) + "\n" else "";
    Ok("**" + NatToString(n) + ". " + Render(step, show) + "**\n" + command
       + ExpectedLabel + Render(expected, show) + "\n" + source + "\n")
  }

  /** `for i, x in enumerate(xs, n)`: each item rendered with its number, concatenated; the first
      failure propagates. */
  function Numbered(xs: seq<Object>, n: nat, render: (Object, nat) -> Result<string>): Result<string>
    decreases |xs|
  {
    if |xs| == 0 then Ok("")
    else
      var head := render(xs[0], n);
      var rest := Numbered(xs[1..], n + 1, render);
      if head.Err? then head
      else if rest.Err? then rest
      else Ok(head.value + rest.value)
  }

  /** A numbered list renders exactly when every item renders with its own number. */
  lemma {:induction false} NumberedOk(xs: seq<Object>, n: nat, render: (Object, nat) -> Result<string>)
    ensures Numbered(xs, n, render).Ok? <==> forall i :: 0 <= i < |xs| ==> render(xs[i], n + i).Ok?
    decreases |xs|
  {
    if |xs| > 0 {
      NumberedOk(xs[1..], n + 1, render);
      assert forall i :: 1 <= i < |xs| ==> xs[i] == xs[1..][i - 1];
    }
  }

  /** Rendering a list is rendering its two halves, the second numbered on from the first. */
  lemma {:induction false} NumberedAppend(xs: seq<Object>, ys: seq<Object>, n: nat, render: (Object, nat) -> Result<string>)
    requires Numbered(xs, n, render).Ok? && Numbered(ys, n + |xs|, render).Ok?
    ensures Numbered(xs + ys, n, render) == Ok(Numbered(xs, n, render).value + Numbered(ys, n + |xs|, render).value)
    decreases |xs|
  {
    var rest := Numbered(ys, n + |xs|, render).value;
    if |xs| == 0 {
      assert xs + ys == ys;
      assert "" + rest == rest;
    } else {
      var zs := xs + ys;
      assert zs[0] == xs[0];
      assert zs[1..] == xs[1..] + ys;
      NumberedAppend(xs[1..], ys, n + 1, render);
      var head := render(xs[0], n).value;
      var tail := Numbered(xs[1..], n + 1, render).value;
      assert head + (tail + rest) == head + tail + rest;
    }
  }

  /** The immediate actions numbered from `n`. */
  function ActionsText(acts: seq<Object>, n: nat, show: Json -> string): (r: Result<string>)
    ensures r.Ok? <==> forall i :: 0 <= i < |acts| ==> RenderableAction(acts[i])
  {
    var render := (a: Object, k: nat) => ActionText(a, k, show);
    NumberedOk(acts, n, render);
    Numbered(acts, n, render)
  }

  /** A falsy command or citation renders exactly as an absent one. */
  lemma FalsyActionFieldsInvisible(a: Object, n: nat, show: Json -> string)
    requires !Truthy(Get(a, "command")) && !Truthy(Get(a, "citation"))
    ensures ActionText(a, n, show) == ActionText(a - {"command", "citation"}, n, show)
  {
    var b := a - {"command", "citation"};
    assert Get(b, "command") == JNull && Get(b, "citation") == JNull;
    assert "step" in a <==> "step" in b;
    assert "expected_outcome" in a <==> "expected_outcome" in b;
    if "step" in a {
      assert a["step"] == b["step"];
    }
    if "expected_outcome" in a {
      assert a["expected_outcome"] == b["expected_outcome"];
    }
  }

  /** One investigation step, numbered `n`, with its optional source. */
  function StepText(s: Object, n: nat, show: Json -> string): (r: Result<string>)
    ensures r.Ok? <==> "step" in s
  {
    var step :- Index(s, "step");
    var source := if Truthy(Get(s, "citation")) then StepSourceLabel + Render(s["citation"], show) + "\n" else "";
    Ok(NatToString(n) + ". " + Render(step, show) + "\n" + source)
  }

  function StepsText(ss: seq<Object>, n: nat, show: Json -> string): (r: Result<string>)
    ensures r.Ok? <==> forall i :: 0 <= i < |ss| ==> "step" in ss[i]
  {
    var render := (x: Object, k: nat) => StepText(x, k, show);
    NumberedOk(ss, n, render);
    Numbered(ss, n, render)
  }

  /** The investigation section: present only when the steps value is truthy. */
  function InvestigationText(v: Json, show: Json -> string): (r: Result<string>)
    ensures !Truthy(v) ==> r == Ok("")
    ensures Truthy(v) ==> (r.Ok? <==> Dicts(v).Ok? && forall i :: 0 <= i < |Dicts(v).value| ==> "step" in Dicts(v).value[i])
    ensures Truthy(v) && r.Ok? ==> StartsWith(r.value, InvestigationHeader)
  {
    if !Truthy(v) then Ok("")
    else
      var ss :- Dicts(v);
      var t :- StepsText(ss, 1, show);
      var r := InvestigationHeader + t;
      assert r[..|InvestigationHeader|] == InvestigationHeader;
      Ok(r)
  }

  /** The escalation section: present only when the escalation value is truthy, which must then be
      a dictionary; a missing field is shown with its default. */
  function EscalationText(v: Json, show: Json -> string): (r: Result<string>)
    ensures !Truthy(v) ==> r == Ok("")
    ensures Truthy(v) ==> (r.Ok? <==> v.JObj?)
    ensures Truthy(v) && v.JObj? ==>
      r.value == EscalationHeader
        + "**When:** " + Render(GetOr(v.fields, "when", JStr("As needed")), show) + "\n"
        + "**Who:** " + Render(GetOr(v.fields, "who", JStr("On-call team")), show) + "\n"
        + "**Channel:** " + Render(GetOr(v.fields, "channel", JStr("#incidents")), show) + "\n"
  {
    if !Truthy(v) then Ok("")
    else if !v.JObj? then Err(TypeError)
    else
      var e := v.fields;
      Ok(EscalationHeader
         + "**When:** " + Render(GetOr(e, "when", JStr("As needed")), show) + "\n"
         + "**Who:** " + Render(GetOr(e, "who", JStr("On-call team")), show) + "\n"
         + "**Channel:** " + Render(GetOr(e, "channel", JStr("#incidents")), show) + "\n")
  }

  /** An escalation dictionary that names none of its fields shows all three defaults. */
  lemma EscalationDefaults(e: Object, show: Json -> string)
    requires |e| > 0 && "when" !in e && "who" !in e && "channel" !in e
    ensures EscalationText(JObj(e), show) ==
      Ok(EscalationHeader + "**When:** " + "As needed" + "\n" + "**Who:** " + "On-call team" + "\n"
         + "**Channel:** " + "#incidents" + "\n")
  {
  }

  /** `_format_mitigation_plan(mitigation)`. */
  function FormatPlan(m: Object, show: Json -> string): (r: Result<string>)
    ensures r.Ok? <==>
      && Dicts(GetOr(m, "immediate_actions", JArr([]))).Ok?
      && (forall i :: 0 <= i < |Dicts(GetOr(m, "immediate_actions", JArr([]))).value| ==>
            RenderableAction(Dicts(GetOr(m, "immediate_actions", JArr([]))).value[i]))
      && InvestigationText(Get(m, "investigation_steps"), show).Ok?
      && EscalationText(Get(m, "escalation"), show).Ok?
    ensures r.Ok? ==> StartsWith(r.value, ActionsHeader)
  {
    var actions :- Dicts(GetOr(m, "immediate_actions", JArr([])));
    var a :- ActionsText(actions, 1, show);
    var inv :- InvestigationText(Get(m, "investigation_steps"), show);
    var esc :- EscalationText(Get(m, "escalation"), show);
    var r := ActionsHeader + a + inv + esc;
    assert r[..|ActionsHeader|] == ActionsHeader;
    Ok(r)
  }

  /** Falsy investigation steps or escalation render exactly as absent ones. */
  lemma FalsySectionsInvisible(m: Object, show: Json -> string)
    requires !Truthy(Get(m, "investigation_steps")) && !Truthy(Get(m, "escalation"))
    ensures FormatPlan(m, show) == FormatPlan(m - {"investigation_steps", "escalation"}, show)
  {
    var b := m - {"investigation_steps", "escalation"};
    assert GetOr(b, "immediate_actions", JArr([])) == GetOr(m, "immediate_actions", JArr([]));
  }

  // ---- The pipeline ----

  /** Everything `triage_incident` assembles before `TriageResult` validates it. */
  datatype Draft = Draft(
    severity: string,
    category: string,
    confidence: Json,
    reasoning: Json,
    runbooks: seq<RunbookRef>,
    causes: seq<Json>,
    plan: string,
    citations: Json)

  /** `[rc["cause"] for rc in root_causes]`. */
  function Causes(rcs: seq<Object>): (r: Result<seq<Json>>)
    ensures r.Ok? <==> forall i :: 0 <= i < |rcs| ==> "cause" in rcs[i]
    ensures r.Ok? ==> |r.value| == |rcs| && forall i :: 0 <= i < |rcs| ==> r.value[i] == rcs[i]["cause"]
    decreases |rcs|
  {
    if |rcs| == 0 then Ok([])
    else
      var c :- Index(rcs[0], "cause");
      var rest :- Causes(rcs[1..]);
      Ok([c] + rest)
  }

  /** Steps two and three and the result's field values, given a classification. */
  function Stages(c: IncidentContext, cls: Object, st: Store, o: Oracles): (r: Result<Draft>)
    requires Valid(st) && Classifier.WellClassified(cls)
    ensures r.Ok? ==> JStr(r.value.severity) == cls["severity"] && JStr(r.value.category) == cls["category"]
    ensures r.Ok? ==> r.value.confidence == GetOr(cls, "confidence", JNum(0.0))
    ensures r.Ok? ==> r.value.reasoning == GetOr(cls, "reasoning", JStr(""))
    ensures r.Ok? ==> |r.value.runbooks| <= RootCause.TopK
    ensures r.Ok? ==> forall i :: 0 <= i < |r.value.runbooks| ==> r.value.runbooks[i].similarity >= RootCause.Threshold
    ensures r.Ok? ==> StartsWith(r.value.plan, ActionsHeader)
    ensures r.Ok? ==>
      var sev, cat := cls["severity"].s, cls["category"].s;
      var a := RootCause.Analyze(c, sev, cat, st, o);
      && a.Ok? && r.value.runbooks == a.value.runbooks
      && var rcs := GetOr(a.value.fields, "root_causes", JArr([]));
         && Dicts(rcs).Ok? && |r.value.causes| == |Dicts(rcs).value|
         && (forall i :: 0 <= i < |r.value.causes| ==>
               "cause" in Dicts(rcs).value[i] && r.value.causes[i] == Dicts(rcs).value[i]["cause"])
         && var p := Mitigation.GeneratePlan(c, sev, cat, rcs, a.value.runbooks, o);
            && p.Ok? && r.value.citations == GetOr(p.value, "citations", JArr([]))
            && FormatPlan(p.value, o.show) == Ok(r.value.plan)
  {
    var sev := cls["severity"].s;
    var cat := cls["category"].s;
    var analysis :- RootCause.Analyze(c, sev, cat, st, o);
    var rootCauses := GetOr(analysis.fields, "root_causes", JArr([]));
    var plan :- Mitigation.GeneratePlan(c, sev, cat, rootCauses, analysis.runbooks, o);
    assert Dicts(rootCauses).Ok?;
    var rcs := Dicts(rootCauses).value;
    assert Causes(rcs).Ok?;
    var causes := Causes(rcs).value;
    var text :- FormatPlan(plan, o.show);
    Ok(Draft(sev, cat, GetOr(cls, "confidence", JNum(0.0)), GetOr(cls, "reasoning", JStr("")),
             analysis.runbooks, causes, text, GetOr(plan, "citations", JArr([]))))
  }

  /** The validations of `TriageResult` other than the confidence bound. */
  predicate TextFieldsValid(d: Draft)
  {
    AllStrings(d.causes) && d.citations.JArr? && AllStrings(d.citations.items) && OptStr(d.reasoning).Ok?
  }

  /** `TriageResult(...)` on a draft. */
  function Build(c: IncidentContext, d: Draft, elapsed: real, now: string): (r: Result<TriageResult>)
    ensures r.Ok? <==> TextFieldsValid(d) && ConfidenceScore(d.confidence).Ok?
    ensures r.Ok? ==> r.value.incidentId == c.alert.incidentId && r.value.severity == d.severity && r.value.category == d.category
    ensures r.Ok? ==> JNum(r.value.confidence) == d.confidence && r.value.relevantRunbooks == d.runbooks
    ensures r.Ok? ==> r.value.mitigationPlan == d.plan && r.value.processingTime == elapsed && r.value.timestamp == now
    ensures r.Ok? ==> StrList(JArr(d.causes)) == Ok(r.value.rootCauses) && StrList(d.citations) == Ok(r.value.citations)
    ensures r.Ok? ==> OptStr(d.reasoning) == Ok(r.value.reasoning)
  {
    if !d.citations.JArr? then Err(ValidationError)
    else
      NewTriageResult(c.alert.incidentId, d.severity, d.category, d.confidence, d.causes, d.plan, d.runbooks,
                      d.citations.items, d.reasoning, elapsed, now)
  }

  /** `triage_incident(incident)` as written. */
  function Triage(c: IncidentContext, st: Store, o: Oracles, elapsed: real, now: string): (r: Result<TriageResult>)
    requires Valid(st)
    ensures Classifier.Classify(c, o).Err? ==> r.Err?
    ensures r.Ok? ==> r.value.incidentId == c.alert.incidentId && r.value.processingTime == elapsed && r.value.timestamp == now
    ensures r.Ok? ==> r.value.severity in Classifier.SeverityLevels && r.value.category in Classifier.Categories
    ensures r.Ok? ==> |r.value.relevantRunbooks| <= RootCause.TopK
    ensures r.Ok? ==> forall i :: 0 <= i < |r.value.relevantRunbooks| ==> r.value.relevantRunbooks[i].similarity >= RootCause.Threshold
    ensures r.Ok? ==> StartsWith(r.value.mitigationPlan, ActionsHeader)
    ensures r.Ok? ==> OptStr(GetOr(Classifier.Classify(c, o).value, "reasoning", JStr(""))) == Ok(r.value.reasoning)
    ensures r.Ok? ==>
      var cls := Classifier.Classify(c, o).value;
      && JStr(r.value.severity) == cls["severity"] && JStr(r.value.category) == cls["category"]
      && JNum(r.value.confidence) == GetOr(cls, "confidence", JNum(0.0))
      && var a := RootCause.Analyze(c, r.value.severity, r.value.category, st, o);
         && a.Ok? && r.value.relevantRunbooks == a.value.runbooks
         && var rcs := Dicts(GetOr(a.value.fields, "root_causes", JArr([])));
            && rcs.Ok? && |r.value.rootCauses| == |rcs.value|
            && (forall i :: 0 <= i < |rcs.value| ==>
                 "cause" in rcs.value[i] && rcs.value[i]["cause"] == JStr(r.value.rootCauses[i]))
            && var p := Mitigation.GeneratePlan(c, r.value.severity, r.value.category,
                                                GetOr(a.value.fields, "root_causes", JArr([])), a.value.runbooks, o);
               && p.Ok? && StrList(GetOr(p.value, "citations", JArr([]))) == Ok(r.value.citations)
               && FormatPlan(p.value, o.show) == Ok(r.value.mitigationPlan)
  {
    var cls :- Classifier.Classify(c, o);
    var d :- Stages(c, cls, st, o);
    Build(c, d, elapsed, now)
  }

  /** The entry `record_triage` appends to the metrics session; the entry's own timestamp comes from
      the collaborator's clock and is left out. */
  datatype TriageRecord = TriageRecord(
    incidentId: string,
    severityPredicted: string,
    categoryPredicted: string,
    rootCauses: seq<string>,
    mitigationPlan: string,
    citations: seq<string>,
    processingTime: real)

  /** `triage_incident` followed by its one call of `record_triage`: a completed triage adds exactly
      one entry to the session, carrying the result's fields; a triage that raised adds nothing. */
  function TriageAndRecord(c: IncidentContext, st: Store, o: Oracles, elapsed: real, now: string,
                           session: seq<TriageRecord>): (r: Result<(TriageResult, seq<TriageRecord>)>)
    requires Valid(st)
    ensures r.Ok? <==> Triage(c, st, o, elapsed, now).Ok?
    ensures r.Ok? ==> r.value.0 == Triage(c, st, o, elapsed, now).value
    ensures r.Ok? ==>
      var t := r.value.0;
      && |r.value.1| == |session| + 1 && r.value.1[..|session|] == session
      && r.value.1[|session|] == TriageRecord(t.incidentId, t.severity, t.category, t.rootCauses,
                                              t.mitigationPlan, t.citations, elapsed)
  {
    var t :- Triage(c, st, o, elapsed, now);
    var entry := TriageRecord(t.incidentId, t.severity, t.category, t.rootCauses, t.mitigationPlan,
                              t.citations, elapsed);
    assert (session + [entry])[..|session|] == session;
    Ok((t, session + [entry]))
  }

  /** The pipeline as written fails whenever the classifier's confidence is a number outside [0, 1],
      even when every stage succeeded. */
  lemma OutOfRangeConfidenceFails(c: IncidentContext, st: Store, o: Oracles, elapsed: real, now: string)
    requires Valid(st)
    requires Classifier.Classify(c, o).Ok?
    requires var cls := Classifier.Classify(c, o).value;
      "confidence" in cls && cls["confidence"].JNum? && !(0.0 <= cls["confidence"].n <= 1.0)
    ensures Triage(c, st, o, elapsed, now).Err?
  {
    var cls := Classifier.Classify(c, o).value;
    var d := Stages(c, cls, st, o);
    if d.Ok? {
      assert d.value.confidence == cls["confidence"];
    }
  }

  /** The classifier passes a decoded confidence through untouched, so a reply such as
      `{"severity": "SEV1", "category": "Database", "confidence": 85}` reaches validation as 85. */
  lemma ClassifierKeepsConfidence(c: IncidentContext, o: Oracles, reply: string, m: Object)
    requires o.generate(Classifier.ClassifyRequest(c, o.metricsJson)) == Ok(reply)
    requires o.parse(Fences.StripOuterFence(reply)) == Some(JObj(m))
    requires "confidence" in m
    ensures Classifier.Classify(c, o).Ok? && Classifier.Classify(c, o).value["confidence"] == m["confidence"]
  {
  }

  /** `triage_incident` with the classifier's confidence clamped into [0, 1]. */
  function TriageCorrected(c: IncidentContext, st: Store, o: Oracles, elapsed: real, now: string): (r: Result<TriageResult>)
    requires Valid(st)
    ensures Classifier.ClassifyClamped(c, o).Err? ==> r.Err?
    ensures r.Ok? ==> r.value.incidentId == c.alert.incidentId && r.value.processingTime == elapsed && r.value.timestamp == now
    ensures r.Ok? ==> r.value.severity in Classifier.SeverityLevels && r.value.category in Classifier.Categories
  {
    var cls :- Classifier.ClassifyClamped(c, o);
    var d :- Stages(c, cls, st, o);
    Build(c, d, elapsed, now)
  }

  /** With the clamp, the confidence bound never decides the outcome: once every stage has succeeded,
      the result is valid exactly when its text fields are. */
  lemma CorrectedConfidenceNeverFails(c: IncidentContext, st: Store, o: Oracles, elapsed: real, now: string)
    requires Valid(st)
    requires Classifier.ClassifyClamped(c, o).Ok?
    requires Stages(c, Classifier.ClassifyClamped(c, o).value, st, o).Ok?
    ensures TriageCorrected(c, st, o, elapsed, now).Ok? <==> TextFieldsValid(Stages(c, Classifier.ClassifyClamped(c, o).value, st, o).value)
  {
  }
}

=== FILE: RootCause.dfy ===
/** The root-cause stage: retrieve up to three runbooks of the classified category, keep those at or
    above the similarity threshold, quote their "Root Causes" sections in the prompt, and attach the
    kept runbooks to whatever analysis the backend returns. */
module RootCause {
  import opened Wrappers
  import opened Text
  import opened Json
  import opened Oracles
  import opened Models
  import opened Lists
  import opened VectorStore
  import opened Fences

  /** Runbooks scoring below this similarity are not used for grounding. */
  const Threshold: real := 0.3

  const TopK := 3

  /** The key under which the grounding runbooks are attached. */
  const RunbooksKey := "relevant_runbooks"

  const RootCausesHeading := "## Root Causes"

  const RunbooksHeader := "\n\n--- RELEVANT RUNBOOKS ---\n"

  const NoMatchMarker := "\n\n--- No matching runbooks found " + "(similarity < 30%). Using general SRE knowledge. ---\n"

  /** The analysis as `analyze` returns it: the backend's fields, except `relevant_runbooks`, which
      is always overwritten and is carried as typed references instead. */
  datatype Analysis = Analysis(fields: Object, runbooks: seq<RunbookRef>)

  // ---- Grounding ----

  predicate Relevant(h: Hit)
  {
    h.similarity >= Threshold
  }

  /** The retrieved runbooks kept for grounding. */
  function Ground(hs: seq<Hit>): (r: seq<Hit>)
    ensures forall h :: h in r <==> h in hs && h.similarity >= Threshold
  {
    Filter(hs, Relevant)
  }

  /** On a list sorted by descending similarity, grounding keeps a prefix and drops only runbooks
      below the threshold. */
  lemma {:induction false} GroundIsPrefix(hs: seq<Hit>)
    requires forall i, j :: 0 <= i < j < |hs| ==> hs[i].similarity >= hs[j].similarity
    ensures |Ground(hs)| <= |hs| && Ground(hs) == hs[..|Ground(hs)|]
    ensures forall i :: |Ground(hs)| <= i < |hs| ==> hs[i].similarity < Threshold
    decreases |hs|
  {
    if |hs| > 0 {
      var tail := hs[1..];
      if Relevant(hs[0]) {
        GroundIsPrefix(tail);
        assert Ground(hs) == [hs[0]] + Ground(tail);
        assert hs[..|Ground(hs)|] == [hs[0]] + tail[..|Ground(tail)|];
        forall i | |Ground(hs)| <= i < |hs| ensures hs[i].similarity < Threshold {
          assert hs[i] == tail[i - 1];
        }
      } else {
        assert Ground(hs) == Ground(tail);
        forall j | 0 <= j < |tail| ensures !Relevant(tail[j]) {
          assert hs[j + 1] == tail[j];
        }
        FilterNone(tail, Relevant);
      }
    }
  }

  /** The runbooks `analyze` grounds on: the top three of the category, then the threshold. */
  function Grounding(c: IncidentContext, category: string, st: Store, o: Oracles): (r: seq<Hit>)
    requires Valid(st)
    ensures |r| <= TopK
    ensures forall i :: 0 <= i < |r| ==> r[i].similarity >= Threshold
    ensures category != "" ==> forall i :: 0 <= i < |r| ==> r[i].category == Some(category)
    ensures forall i, j :: 0 <= i < j < |r| ==> Before(r[i], r[j])
    ensures r == Ground(Search(st, c.alert.alertName + " " + c.alert.description, TopK, Some(category), o.embed, o.sqrt))
  {
    var hits := Search(st, c.alert.alertName + " " + c.alert.description, TopK, Some(category), o.embed, o.sqrt);
    FilterKeepsPairwise(hits, Relevant, Before);
    var r := Ground(hits);
    forall i | 0 <= i < |r| ensures r[i].similarity >= Threshold && (category != "" ==> r[i].category == Some(category)) {
      assert r[i] in r;
    }
    r
  }

  /** The references `analyze` attaches: title, path and similarity of each grounding runbook. */
  function Refs(hs: seq<Hit>): (r: seq<RunbookRef>)
    ensures |r| == |hs|
    ensures forall i :: 0 <= i < |hs| ==> r[i] == RunbookRef(hs[i].title, hs[i].path, hs[i].similarity)
  {
    seq(|hs|, i requires 0 <= i < |hs| => RunbookRef(hs[i].title, hs[i].path, hs[i].similarity))
  }

  // ---- The prompt ----

  /** The quoted part of a runbook: at most 500 characters of its "Root Causes" section. */
  function Excerpt(content: string): (r: string)
    ensures !Contains(content, RootCausesHeading) ==> r == ""
    ensures Contains(content, RootCausesHeading) ==>
      var x := SectionAfter(content, RootCausesHeading);
      r == Prefix(x, 500) + "...\n" && x <= After(content, RootCausesHeading) && !Contains(x, "##")
  {
    if Contains(content, RootCausesHeading) then
      SectionAfterShape(content, RootCausesHeading);
      Prefix(SectionAfter(content, RootCausesHeading), 500) + "...\n"
    else ""
  }

  /** One numbered entry of the runbook context, numbering from `n`. */
  function Entries(hs: seq<Hit>, n: nat, fixed2: real -> string): string
    decreases |hs|
  {
    if |hs| == 0 then ""
    else
      "\n" + NatToString(n) + ". " + hs[0].title + " (Similarity: " + fixed2(hs[0].similarity) + ")\n"
      + Excerpt(hs[0].content) + Entries(hs[1..], n + 1, fixed2)
  }

  function RunbookContext(ground: seq<Hit>, fixed2: real -> string): (r: string)
    ensures |ground| == 0 ==> r == NoMatchMarker
    ensures |ground| > 0 ==> StartsWith(r, RunbooksHeader)
  {
    if |ground| == 0 then NoMatchMarker
    else
      var r := RunbooksHeader + Entries(ground, 1, fixed2);
      assert r[..|RunbooksHeader|] == RunbooksHeader;
      r
  }

  /** The prompt says that no runbook matched exactly when none was kept. */
  lemma NoMatchIffUngrounded(ground: seq<Hit>, fixed2: real -> string)
    ensures RunbookContext(ground, fixed2) == NoMatchMarker <==> |ground| == 0
  {
    if |ground| > 0 {
      var r := RunbookContext(ground, fixed2);
      MarkersDiffer();
      assert r[6] == r[..|RunbooksHeader|][6];
    }
  }

  lemma MarkersDiffer()
    ensures |RunbooksHeader| > 6 && |NoMatchMarker| > 6 && RunbooksHeader[6] != NoMatchMarker[6]
  {
  }

  /** Logs are quoted up to 1500 characters; missing or empty logs are announced instead. */
  function LogText(logs: Option<string>): (r: string)
    ensures Given(logs) ==> r == Prefix(logs.value, 1500)
    ensures !Given(logs) ==> r == "No logs available"
  {
    if Given(logs) then Prefix(logs.value, 1500) else "No logs available"
  }

  function Prompt(c: IncidentContext, severity: string, category: string, context: string,
                  metricsJson: map<string, real> -> string): string
  {
    var a := c.alert;
    "\nIncident Details:\n- Alert: " + a.alertName
    + "\n- Description: " + a.description
    + "\n- Severity: " + severity
    + "\n- Category: " + category
    + "\n- Affected Services: " + Join(", ", a.affectedServices)
    + "\n\nMetrics:\n" + metricsJson(a.metrics)
    + "\n\nLogs:\n" + LogText(c.logs)
    + "\n\n" + context
    + "\n\nAnalyze and identify root causes:"
  }

  /** The backend call: the root-cause persona at temperature 0.2 with at most 1500 tokens. */
  function AnalyzeRequest(c: IncidentContext, severity: string, category: string, ground: seq<Hit>, o: Oracles): (q: Request)
    ensures q.persona == RootCausePersona && q.temperature == 0.2 && q.maxTokens == Some(1500)
  {
    Request(Prompt(c, severity, category, RunbookContext(ground, o.fixed2), o.metricsJson), RootCausePersona, 0.2, Some(1500))
  }

  // ---- The reply ----

  /** The analysis returned when the reply is not JSON. */
  const FallbackFields: Object := map[
    "root_causes" := JArr([JObj(map[
      "cause" := JStr("Unable to determine - analysis failed"),
      "likelihood" := JNum(0.3),
      "evidence" := JStr("LLM response parsing error")])]),
    "primary_cause" := JStr("Unknown"),
    "reasoning" := JStr("Root cause analysis failed"),
    "relevant_runbooks" := JArr([])]

  /** The decoded fields whose `root_causes`, when present, has a length for the log line that
      counts them. */
  predicate CountableCauses(m: Object)
  {
    "root_causes" in m ==> Sized(m["root_causes"])
  }

  /** The reply handling of `analyze`: undecodable text gives the fallback analysis with no runbooks;
      a decoded object gets the grounding runbooks attached; any other decoded value fails when the
      runbooks are assigned into it, and an object whose `root_causes` has no length fails when the
      causes are counted for the log. */
  function AnalyzeReply(reply: string, parse: string -> Option<Json>, ground: seq<Hit>): (r: Result<Analysis>)
    ensures parse(StripFenceLines(reply)).None? ==> r == Ok(Analysis(FallbackFields - {RunbooksKey}, []))
    ensures r.Err? <==>
      && parse(StripFenceLines(reply)).Some?
      && (!parse(StripFenceLines(reply)).value.JObj? || !CountableCauses(parse(StripFenceLines(reply)).value.fields))
    ensures r.Ok? ==> RunbooksKey !in r.value.fields
    ensures r.Ok? ==> |r.value.runbooks| <= |ground|
    ensures r.Ok? ==> forall i :: 0 <= i < |r.value.runbooks| ==> r.value.runbooks[i].similarity == ground[i].similarity
    ensures r.Ok? && parse(StripFenceLines(reply)).Some? ==>
      && r.value.runbooks == Refs(ground)
      && var m := parse(StripFenceLines(reply)).value.fields;
         r.value.fields.Keys == m.Keys - {RunbooksKey}
         && forall k :: k in r.value.fields ==> r.value.fields[k] == m[k]
  {
    match parse(StripFenceLines(reply))
    case None => Ok(Analysis(FallbackFields - {RunbooksKey}, []))
    case Some(JObj(m)) => if CountableCauses(m) then Ok(Analysis(m - {RunbooksKey}, Refs(ground))) else Err(TypeError)
    case Some(_) => Err(TypeError)
  }

  /** A decoded object whose `root_causes` is `null`, a number or a boolean fails the stage. */
  lemma UncountableCausesFail(reply: string, parse: string -> Option<Json>, ground: seq<Hit>, m: Object)
    requires parse(StripFenceLines(reply)) == Some(JObj(m))
    requires "root_causes" in m && (m["root_causes"].JNull? || m["root_causes"].JNum? || m["root_causes"].JBool?)
    ensures AnalyzeReply(reply, parse, ground) == Err(TypeError)
  {
  }

  /** `analyze(incident, severity, category)`. */
  function Analyze(c: IncidentContext, severity: string, category: string, st: Store, o: Oracles): (r: Result<Analysis>)
    requires Valid(st)
    ensures var q := AnalyzeRequest(c, severity, category, Grounding(c, category, st, o), o);
      && (o.generate(q).Err? ==> r.Err?)
      && (o.generate(q).Ok? ==> r == AnalyzeReply(o.generate(q).value, o.parse, Grounding(c, category, st, o)))
    ensures r.Ok? ==> |r.value.runbooks| <= TopK
    ensures r.Ok? ==> forall i :: 0 <= i < |r.value.runbooks| ==> r.value.runbooks[i].similarity >= Threshold
    ensures r.Ok? ==> RunbooksKey !in r.value.fields
  {
    var ground := Grounding(c, category, st, o);
    var reply :- o.generate(AnalyzeRequest(c, severity, category, ground, o));
    AnalyzeReply(reply, o.parse, ground)
  }
}

=== FILE: RunbookStore.dfy ===
/** Runbook indexing and retrieval on top of the index: reading a directory of Markdown runbooks,
    taking each title from its first line, inferring its category from a keyword table, and
    delegating searches and listings to the index. */
module RunbookStore {
  import opened Wrappers
  import opened Text
  import opened VectorStore

  /** A `*.md` file found in the runbook directory: its path, its file-name stem, and its text, or
      `None` when opening or reading it failed. */
  datatype RunbookFile = RunbookFile(path: string, stem: string, text: Option<string>)

  /** The categories the keyword table can infer, plus the default. */
  datatype Category = Database | ApiService | Infrastructure | Network | Performance | DataPipeline | Security | General
  {
    /** The category's name as stored with a runbook. */
    function Name(): string
    {
      match this
      case Database => "Database"
      case ApiService => "API/Service"
      case Infrastructure => "Infrastructure"
      case Network => "Network"
      case Performance => "Performance"
      case DataPipeline => "Data Pipeline"
      case Security => "Security"
      case General => "General"
    }
  }

  /** The keyword table, in the priority order in which categories are tried. */
  const CategoryTable: seq<(Category, seq<string>)> := [
    (Database, ["db", "database", "postgres", "mysql", "sql"]),
    (ApiService, ["api", "service", "gateway", "rest", "http"]),
    (Infrastructure, ["infra", "kubernetes", "k8s", "docker", "aws"]),
    (Network, ["network", "dns", "firewall", "load balancer"]),
    (Performance, ["performance", "latency", "slow", "timeout"]),
    (DataPipeline, ["kafka", "pipeline", "stream", "queue", "consumer"]),
    (Security, ["security", "auth", "ssl", "certificate"])
  ]

  /** Some keyword occurs in the (already lower-cased) file name or content. */
  predicate Mentions(keywords: seq<string>, name: string, content: string)
  {
    exists i | 0 <= i < |keywords| :: Contains(name, keywords[i]) || Contains(content, keywords[i])
  }

  /** The categories of a table are pairwise distinct and differ from the default. */
  predicate DistinctCategories(table: seq<(Category, seq<string>)>)
  {
    && (forall i :: 0 <= i < |table| ==> table[i].0 != General)
    && (forall i, j :: 0 <= i < j < |table| ==> table[i].0 != table[j].0)
  }

  /** The first category at or after row `k` of `table` whose keywords match, else `General`. */
  function FirstMatchFrom(table: seq<(Category, seq<string>)>, k: nat, name: string, content: string): (r: Category)
    requires k <= |table| && DistinctCategories(table)
    ensures r == General || exists i :: k <= i < |table| && r == table[i].0
    ensures r == General <==> forall j :: k <= j < |table| ==> !Mentions(table[j].1, name, content)
    ensures forall i :: k <= i < |table| && r == table[i].0 ==>
      Mentions(table[i].1, name, content) && forall j :: k <= j < i ==> !Mentions(table[j].1, name, content)
    decreases |table| - k
  {
    if k == |table| then General
    else if Mentions(table[k].1, name, content) then table[k].0
    else FirstMatchFrom(table, k + 1, name, content)
  }

  /** The category `_infer_category` picks: the first row of the table one of whose keywords occurs
      in the lower-cased file name or content, else `General`. */
  function Infer(filename: string, content: string): (r: Category)
    ensures r == General <==> forall j :: 0 <= j < |CategoryTable| ==> !Mentions(CategoryTable[j].1, Lower(filename), Lower(content))
    ensures forall i :: 0 <= i < |CategoryTable| && r == CategoryTable[i].0 ==>
      && Mentions(CategoryTable[i].1, Lower(filename), Lower(content))
      && forall j :: 0 <= j < i ==> !Mentions(CategoryTable[j].1, Lower(filename), Lower(content))
  {
    FirstMatchFrom(CategoryTable, 0, Lower(filename), Lower(content))
  }

  /** `_infer_category(filename, content)`: the name of the inferred category, never "Frontend". */
  function InferCategory(filename: string, content: string): (r: string)
    ensures r == "General" <==> Infer(filename, content) == General
    ensures r != "Frontend"
  {
    Infer(filename, content).Name()
  }

  /** The inferred category is the first row, in table order, that matches. */
  lemma InferCategoryIsFirstMatch(filename: string, content: string, i: int)
    requires 0 <= i < |CategoryTable|
    requires Mentions(CategoryTable[i].1, Lower(filename), Lower(content))
    requires forall j :: 0 <= j < i ==> !Mentions(CategoryTable[j].1, Lower(filename), Lower(content))
    ensures Infer(filename, content) == CategoryTable[i].0
  {
    var r := Infer(filename, content);
    assert r != General;
    var k :| 0 <= k < |CategoryTable| && r == CategoryTable[k].0;
  }

  /** Inference ignores letter case: strings that lower-case alike infer alike, and lower-casing the
      inputs first changes nothing. */
  lemma InferCategoryIgnoresCase(f1: string, c1: string, f2: string, c2: string)
    requires Lower(f1) == Lower(f2) && Lower(c1) == Lower(c2)
    ensures Infer(f1, c1) == Infer(f2, c2)
    ensures Infer(Lower(f1), Lower(c1)) == Infer(f1, c1)
  {
    LowerIdempotent(f1);
    LowerIdempotent(c1);
  }

  /** `lines[0].replace('#', '').strip()` with `lines = content.split('\n')`. Splitting yields at
      least one line, so the file-stem fallback of the `else` branch is never taken. */
  function ExtractTitle(content: string): (r: string)
    ensures '#' !in r && '\n' !in r
    ensures |r| > 0 ==> !IsSpace(r[0]) && !IsSpace(r[|r| - 1])
    ensures var t := RemoveChar(Split(content, "\n")[0], '#'); var i := LeadingSpace(t);
      i <= |t| - |r| && t[i..i + |r|] == r && AllSpace(t[..i]) && AllSpace(t[i + |r|..])
  {
    var first := Split(content, "\n")[0];
    FirstLineHasNoBreak(content);
    StripKeepsChars(RemoveChar(first, '#'));
    Strip(RemoveChar(first, '#'))
  }

  lemma FirstLineHasNoBreak(content: string)
    ensures '\n' !in Split(content, "\n")[0]
  {
    var first := Split(content, "\n")[0];
    SplitPiecesAvoidSeparator(content, "\n");
    if '\n' in first {
      var i :| 0 <= i < |first| && first[i] == '\n';
      assert first[i..i + 1] == "\n";
      assert OccursAt(first, "\n", i);
      ContainsIff(first, "\n");
    }
  }

  lemma StripKeepsChars(s: string)
    ensures forall c :: c in Strip(s) ==> c in s
  {
    var r := Strip(s);
    var i := LeadingSpace(s);
    forall c | c in r ensures c in s {
      var k :| 0 <= k < |r| && r[k] == c;
      assert s[i + k] == c;
    }
  }

  /** Stripping ignores one extra leading blank. */
  lemma StripAfterBlank(t: string)
    requires |t| > 0 ==> !IsSpace(t[0]) && !IsSpace(t[|t| - 1])
    ensures Strip(" " + t) == t
  {
    var s := " " + t;
    assert s[1..] == t;
    assert LeadingSpace(t) == 0;
    assert LeadingSpace(s) == 1;
    assert TrailingSpace(t) == 0;
    assert t[..|t| - 0] == t;
  }

  /** A runbook whose first line is `# <title>` gets exactly that title. */
  lemma TitleOfHeading(title: string, rest: string)
    requires '#' !in title && '\n' !in title
    requires |title| > 0 ==> !IsSpace(title[0]) && !IsSpace(title[|title| - 1])
    ensures ExtractTitle("# " + title + "\n" + rest) == title
  {
    var s := "# " + title + "\n" + rest;
    var n := 2 + |title|;
    assert s[n..n + 1] == "\n";
    assert OccursAt(s, "\n", n);
    forall j | 0 <= j < n ensures !OccursAt(s, "\n", j) {
      assert s[j..j + 1][0] == s[j];
      if j >= 2 {
        assert s[j] == title[j - 2];
      }
    }
    assert IndexOf(s, "\n") == Some(n);
    SplitHead(s, "\n");
    assert s[..n] == "# " + title;
    assert RemoveChar("# " + title, '#') == " " + title by {
      assert ("# " + title)[1..] == " " + title;
      RemoveAbsent(" " + title, '#');
    }
    StripAfterBlank(title);
  }

  lemma {:induction false} RemoveAbsent(s: string, c: char)
    requires c !in s
    ensures RemoveChar(s, c) == s
    decreases |s|
  {
    if |s| > 0 {
      RemoveAbsent(s[1..], c);
    }
  }

  /** The row `index_runbooks` writes for a readable file. */
  ghost predicate FromFile(x: Record, f: RunbookFile)
  {
    && f.text == Some(x.content) && x.path == f.path
    && x.title == ExtractTitle(x.content)
    && x.category == Some(InferCategory(f.stem, x.content))
  }

  /** Indexes `files` in order, skipping every file that could not be read. */
  function IndexFiles(st: Store, files: seq<RunbookFile>, embed: string -> seq<real>): (r: Store)
    requires Valid(st)
    ensures Valid(r)
    decreases |files|
  {
    if |files| == 0 then st
    else
      IndexFiles(IndexHead(st, files[0], embed), files[1..], embed)
  }

  /** The store after indexing the first file, if it was readable. */
  function IndexHead(st: Store, f: RunbookFile, embed: string -> seq<real>): (r: Store)
    requires Valid(st)
    ensures Valid(r)
  {
    if f.text.Some? then
      Upsert(st, ExtractTitle(f.text.value), f.path, f.text.value, Some(InferCategory(f.stem, f.text.value)), embed)
    else st
  }

  /** Every row after indexing was there before or was written for one of the files. */
  lemma {:induction false} IndexFilesProvenance(st: Store, files: seq<RunbookFile>, embed: string -> seq<real>)
    requires Valid(st)
    ensures forall x :: x in IndexFiles(st, files, embed).rows ==> x in st.rows || FromSome(x, files)
    decreases |files|
  {
    if |files| > 0 {
      var f := files[0];
      var st1 := IndexHead(st, f, embed);
      IndexFilesProvenance(st1, files[1..], embed);
      var r := IndexFiles(st, files, embed);
      assert r == IndexFiles(st1, files[1..], embed);
      forall x | x in r.rows
        ensures x in st.rows || FromSome(x, files)
      {
        if x in st1.rows {
          IndexHeadRows(st, f, embed, x);
          if x !in st.rows {
            assert FromFile(x, files[0]);
          }
        } else {
          FromSomeTail(x, files);
        }
      }
    }
  }

  /** The row was written for one of the files. */
  ghost predicate FromSome(x: Record, files: seq<RunbookFile>)
  {
    exists i :: 0 <= i < |files| && FromFile(x, files[i])
  }

  lemma FromSomeTail(x: Record, files: seq<RunbookFile>)
    requires |files| > 0 && FromSome(x, files[1..])
    ensures FromSome(x, files)
  {
    var i :| 0 <= i < |files[1..]| && FromFile(x, files[1..][i]);
    var f := files[1..][i];
    assert f == files[i + 1];
    assert FromFile(x, files[i + 1]);
  }

  /** Indexing never loses a path that was already in the store. */
  lemma {:induction false} IndexFilesKeepsPaths(st: Store, files: seq<RunbookFile>, embed: string -> seq<real>)
    requires Valid(st)
    ensures forall x :: x in st.rows ==> exists y :: y in IndexFiles(st, files, embed).rows && y.path == x.path
    decreases |files|
  {
    if |files| > 0 {
      var f := files[0];
      var st1 := IndexHead(st, f, embed);
      IndexFilesKeepsPaths(st1, files[1..], embed);
      assert IndexFiles(st, files, embed) == IndexFiles(st1, files[1..], embed);
      forall x | x in st.rows
        ensures exists y :: y in st1.rows && y.path == x.path
      {
        if f.text.Some? {
          UpsertKeepsPath(st, ExtractTitle(f.text.value), f.path, f.text.value, Some(InferCategory(f.stem, f.text.value)), embed, x);
        }
      }
    }
  }

  /** Every readable file has a row with its path after indexing. */
  lemma {:induction false} IndexFilesCovers(st: Store, files: seq<RunbookFile>, embed: string -> seq<real>)
    requires Valid(st)
    ensures forall i :: 0 <= i < |files| && files[i].text.Some? ==>
      exists x :: x in IndexFiles(st, files, embed).rows && x.path == files[i].path
    decreases |files|
  {
    if |files| > 0 {
      var f := files[0];
      var st1 := IndexHead(st, f, embed);
      IndexFilesCovers(st1, files[1..], embed);
      IndexFilesKeepsPaths(st1, files[1..], embed);
      var r := IndexFiles(st, files, embed);
      assert r == IndexFiles(st1, files[1..], embed);
      forall i | 0 <= i < |files| && files[i].text.Some?
        ensures exists x :: x in r.rows && x.path == files[i].path
      {
        if i == 0 {
          IndexHeadHasPath(st, f, embed);
        } else {
          assert files[1..][i - 1] == files[i];
        }
      }
    }
  }

  lemma IndexHeadRows(st: Store, f: RunbookFile, embed: string -> seq<real>, x: Record)
    requires Valid(st) && x in IndexHead(st, f, embed).rows
    ensures x in st.rows || FromFile(x, f)
  {
    if f.text.Some? {
      UpsertRows(st, ExtractTitle(f.text.value), f.path, f.text.value, Some(InferCategory(f.stem, f.text.value)), embed, x);
    }
  }

  lemma IndexHeadHasPath(st: Store, f: RunbookFile, embed: string -> seq<real>)
    requires Valid(st) && f.text.Some?
    ensures exists x :: x in IndexHead(st, f, embed).rows && x.path == f.path
  {
    var st1 := IndexHead(st, f, embed);
    assert st1.rows[|st1.rows| - 1] in st1.rows;
  }

  /** A row of an upserted table is an old row or the new one. */
  lemma UpsertRows(st: Store, title: string, path: string, content: string, category: Option<string>,
                   embed: string -> seq<real>, x: Record)
    requires Valid(st)
    requires x in Upsert(st, title, path, content, category, embed).rows
    ensures x in st.rows || x == Record(st.nextId, title, path, content, category, embed(content))
  {
    var r := Upsert(st, title, path, content, category, embed);
    assert r.rows == r.rows[..|r.rows| - 1] + [r.rows[|r.rows| - 1]];
  }

  /** An upsert never loses a path. */
  lemma UpsertKeepsPath(st: Store, title: string, path: string, content: string, category: Option<string>,
                        embed: string -> seq<real>, x: Record)
    requires Valid(st) && x in st.rows
    ensures exists y :: y in Upsert(st, title, path, content, category, embed).rows && y.path == x.path
  {
    var r := Upsert(st, title, path, content, category, embed);
    if x.path == path {
      assert r.rows[|r.rows| - 1] in r.rows;
    } else {
      assert x in r.rows[..|r.rows| - 1];
    }
  }

  /** `index_runbooks`: with no runbook directory (`None`) the index is left as it was; otherwise it
      is cleared and every readable `*.md` file is upserted. */
  function IndexRunbooks(st: Store, dir: Option<seq<RunbookFile>>, embed: string -> seq<real>): (r: Store)
    requires Valid(st)
    ensures Valid(r)
    ensures dir.None? ==> r == st
    ensures dir.Some? ==> forall x :: x in r.rows ==> FromSome(x, dir.value)
    ensures dir.Some? ==> forall i :: 0 <= i < |dir.value| && dir.value[i].text.Some? ==>
      exists x :: x in r.rows && x.path == dir.value[i].path
  {
    match dir
    case None => st
    case Some(files) =>
      IndexFilesProvenance(Clear(st), files, embed);
      IndexFilesCovers(Clear(st), files, embed);
      IndexFiles(Clear(st), files, embed)
  }

  /** `search_runbooks`: the index's ranked search, unchanged. */
  function SearchRunbooks(st: Store, query: string, topK: int, category: Option<string>,
                          embed: string -> seq<real>, sqrt: real -> real): (r: seq<Hit>)
    requires Valid(st)
    ensures r == Search(st, query, topK, category, embed, sqrt)
  {
    Search(st, query, topK, category, embed, sqrt)
  }

  /** `list_all_runbooks`: the index's listing, unchanged. */
  function ListAllRunbooks(st: Store): (r: seq<Runbook>)
    ensures r == AllRunbooks(st)
  {
    AllRunbooks(st)
  }

  /** After re-indexing an empty directory every search is empty. */
  lemma EmptyCorpusSearch(st: Store, query: string, topK: int, category: Option<string>,
                          embed: string -> seq<real>, sqrt: real -> real)
    requires Valid(st)
    ensures SearchRunbooks(IndexRunbooks(st, Some([]), embed), query, topK, category, embed, sqrt) == []
  {
    ClearedIsEmpty(st, query, topK, category, embed, sqrt);
  }
}

=== FILE: Text.dfy ===
/** Python `str` operations used by the pipeline, on Dafny strings (sequences of Unicode scalar values):
    substring search, `split`/`join`, `strip`, `lower`, `replace` of one character, and
    `startswith`. */
module Text {
  import opened Wrappers

  predicate StartsWith(s: string, prefix: string)
  {
    |prefix| <= |s| && s[..|prefix|] == prefix
  }

  predicate EndsWith(s: string, suffix: string)
  {
    |suffix| <= |s| && s[|s| - |suffix|..] == suffix
  }

  /** `t` occurs in `s` starting at index `i`. */
  predicate OccursAt(s: string, t: string, i: int)
  {
    0 <= i && i + |t| <= |s| && s[i..i + |t|] == t
  }

  /** First occurrence of `t` in `s` at or after index `k`. */
  function FindFrom(s: string, t: string, k: nat): (r: Option<nat>)
    ensures r.Some? ==> k <= r.value && OccursAt(s, t, r.value)
    ensures r.Some? ==> forall j :: k <= j < r.value ==> !OccursAt(s, t, j)
    ensures r.None? ==> forall j :: k <= j ==> !OccursAt(s, t, j)
    decreases |s| - k
  {
    if |s| < k + |t| then None
    else if s[k..k + |t|] == t then Some(k)
    else FindFrom(s, t, k + 1)
  }

  /** Python's `s.find(t)`, as an option: the first index at which `t` occurs in `s`. */
  function IndexOf(s: string, t: string): (r: Option<nat>)
    ensures r.Some? ==> OccursAt(s, t, r.value) && forall j :: 0 <= j < r.value ==> !OccursAt(s, t, j)
    ensures r.None? <==> forall j :: !OccursAt(s, t, j)
  {
    FindFrom(s, t, 0)
  }

  /** Python's `t in s`. */
  predicate Contains(s: string, t: string)
  {
    IndexOf(s, t).Some?
  }

  lemma ContainsIff(s: string, t: string)
    ensures Contains(s, t) <==> exists i :: OccursAt(s, t, i)
  {
  }

  /** A string contains itself at the front when it starts with it. */
  lemma StartsWithContains(s: string, t: string)
    requires StartsWith(s, t)
    ensures Contains(s, t)
  {
    assert OccursAt(s, t, 0);
  }

  /** Python's `s.split(sep)` for a non-empty separator: the pieces between successive
      non-overlapping occurrences of `sep`, scanning left to right. */
  function Split(s: string, sep: string): (r: seq<string>)
    requires |sep| > 0
    ensures |r| >= 1
    decreases |s|
  {
    match IndexOf(s, sep)
    case None => [s]
    case Some(i) => [s[..i]] + Split(s[i + |sep|..], sep)
  }

  /** `s.split(sep)` has a second piece exactly when `sep` occurs in `s`. */
  lemma SplitCount(s: string, sep: string)
    requires |sep| > 0
    ensures Contains(s, sep) <==> |Split(s, sep)| >= 2
  {
  }

  /** Python's `sep.join(parts)`. */
  function Join(sep: string, parts: seq<string>): string
    decreases |parts|
  {
    if |parts| == 0 then ""
    else if |parts| == 1 then parts[0]
    else parts[0] + sep + Join(sep, parts[1..])
  }

  /** Splitting and re-joining with the same separator gives back the original string. */
  lemma {:induction false} JoinSplit(s: string, sep: string)
    requires |sep| > 0
    ensures Join(sep, Split(s, sep)) == s
    decreases |s|
  {
    match IndexOf(s, sep)
    case None =>
    case Some(i) =>
      var rest := s[i + |sep|..];
      JoinSplit(rest, sep);
      SplitStep(s, sep, i);
      var parts := [s[..i]] + Split(rest, sep);
      assert parts[1..] == Split(rest, sep);
      JoinFirst(sep, parts, rest);
      assert s[i..i + |sep|] == sep;
      assert s == s[..i] + sep + rest;
  }

  /** One step of `Split`: the piece before the first separator, then the pieces of the rest. */
  lemma SplitStep(s: string, sep: string, i: nat)
    requires |sep| > 0 && IndexOf(s, sep) == Some(i)
    ensures Split(s, sep) == [s[..i]] + Split(s[i + |sep|..], sep)
  {
  }

  /** No piece produced by `Split` contains the separator. */
  lemma {:induction false} SplitPiecesAvoidSeparator(s: string, sep: string)
    requires |sep| > 0
    ensures forall k :: 0 <= k < |Split(s, sep)| ==> !Contains(Split(s, sep)[k], sep)
    decreases |s|
  {
    var parts := Split(s, sep);
    match IndexOf(s, sep)
    case None =>
      assert parts == [s];
    case Some(i) =>
      var rest := s[i + |sep|..];
      SplitPiecesAvoidSeparator(rest, sep);
      assert parts == [s[..i]] + Split(rest, sep);
      BeforeFirstAvoidsSeparator(s, sep, i);
      forall k | 0 <= k < |parts| ensures !Contains(parts[k], sep) {
        if k > 0 {
          assert parts[k] == Split(rest, sep)[k - 1];
        }
      }
  }

  /** The text before the first occurrence of `sep` does not contain `sep`. */
  lemma BeforeFirstAvoidsSeparator(s: string, sep: string, i: nat)
    requires |sep| > 0 && IndexOf(s, sep) == Some(i)
    ensures !Contains(s[..i], sep)
  {
    var head := s[..i];
    if Contains(head, sep) {
      var j := IndexOf(head, sep).value;
      OccursInPrefix(s, i, sep, j);
      assert false;
    }
  }

  /** Joining two non-empty lists of pieces puts one separator between them. */
  lemma {:induction false} JoinAppend(sep: string, a: seq<string>, b: seq<string>)
    requires |a| > 0 && |b| > 0
    ensures Join(sep, a + b) == Join(sep, a) + sep + Join(sep, b)
    decreases |a|
  {
    if |a| == 1 {
      assert (a + b)[1..] == b;
    } else {
      assert (a + b)[1..] == a[1..] + b;
      JoinAppend(sep, a[1..], b);
    }
  }

  /** Characters Python's `str.isspace` accepts, hence those `str.strip()` removes. */
  predicate IsSpace(c: char)
  {
    || c == ' ' || c == '\t' || c == '\n' || c == '\r' || c == '\U{0B}' || c == '\U{0C}'
    || ('\U{1C}' <= c <= '\U{1F}') || c == '\U{85}' || c == '\U{A0}' || c == '\U{1680}'
    || ('\U{2000}' <= c <= '\U{200A}') || c == '\U{2028}' || c == '\U{2029}'
    || c == '\U{202F}' || c == '\U{205F}' || c == '\U{3000}'
  }

  predicate AllSpace(s: string)
  {
    forall i :: 0 <= i < |s| ==> IsSpace(s[i])
  }

  /** Length of the longest all-whitespace prefix. */
  function LeadingSpace(s: string): (n: nat)
    ensures n <= |s| && AllSpace(s[..n])
    ensures n < |s| ==> !IsSpace(s[n])
    decreases |s|
  {
    if |s| > 0 && IsSpace(s[0]) then
      var m := LeadingSpace(s[1..]);
      assert s[..m + 1] == [s[0]] + s[1..][..m];
      1 + m
    else 0
  }

  /** Length of the longest all-whitespace suffix. */
  function TrailingSpace(s: string): (n: nat)
    ensures n <= |s| && AllSpace(s[|s| - n..])
    ensures n < |s| ==> !IsSpace(s[|s| - n - 1])
    decreases |s|
  {
    if |s| > 0 && IsSpace(s[|s| - 1]) then
      var t := s[..|s| - 1];
      var m := TrailingSpace(t);
      assert s[|s| - (m + 1)..] == t[|t| - m..] + [s[|s| - 1]];
      assert m + 1 < |s| ==> s[|s| - (m + 1) - 1] == t[|t| - m - 1];
      1 + m
    else 0
  }

  /** Python's `s.strip()`: the infix of `s` left after removing surrounding whitespace. */
  function Strip(s: string): (r: string)
    ensures |r| > 0 ==> !IsSpace(r[0]) && !IsSpace(r[|r| - 1])
    ensures var i := LeadingSpace(s); i <= |s| - |r| && s[i..i + |r|] == r && AllSpace(s[..i]) && AllSpace(s[i + |r|..])
  {
    var a := LeadingSpace(s);
    var t := s[a..];
    var b := TrailingSpace(t);
    var r := t[..|t| - b];
    StripBounds(s, a, t, b, r);
    r
  }

  /** The cut `strip()` makes: all-whitespace on both sides, and no whitespace at its edges. */
  lemma StripBounds(s: string, a: nat, t: string, b: nat, r: string)
    requires a <= |s| && t == s[a..] && b <= |t| && r == t[..|t| - b]
    requires AllSpace(s[..a]) && (a < |s| ==> !IsSpace(s[a]))
    requires AllSpace(t[|t| - b..]) && (b < |t| ==> !IsSpace(t[|t| - b - 1]))
    ensures a <= |s| - |r| && s[a..a + |r|] == r && AllSpace(s[..a]) && AllSpace(s[a + |r|..])
    ensures |r| > 0 ==> !IsSpace(r[0]) && !IsSpace(r[|r| - 1])
  {
    assert t[|t| - b..] == s[a + |r|..];
    if |r| > 0 {
      assert r[0] == s[a];
      assert r[|r| - 1] == t[|t| - b - 1];
    }
  }

  /** A string without surrounding whitespace is its own `strip()`. */
  lemma StripClean(s: string)
    requires |s| > 0 ==> !IsSpace(s[0]) && !IsSpace(s[|s| - 1])
    ensures Strip(s) == s
  {
  }

  /** Python's `str.lower()` on ASCII letters; other characters are kept. */
  function LowerChar(c: char): char
  {
    if 'A' <= c <= 'Z' then (c as int + 32) as char else c
  }

  function Lower(s: string): (r: string)
    ensures |r| == |s|
    ensures forall i :: 0 <= i < |s| ==> r[i] == LowerChar(s[i])
  {
    seq(|s|, i requires 0 <= i < |s| => LowerChar(s[i]))
  }

  /** Lower-casing twice is lower-casing once. */
  lemma LowerIdempotent(s: string)
    ensures Lower(Lower(s)) == Lower(s)
  {
  }

  /** Every string contains itself. */
  lemma ContainsSelf(s: string)
    ensures Contains(s, s)
  {
    assert OccursAt(s, s, 0);
  }

  /** Python's `s.replace(c, "")` for a one-character `c`. */
  function RemoveChar(s: string, c: char): (r: string)
    ensures forall x :: x in r <==> x in s && x != c
    ensures |r| <= |s|
    decreases |s|
  {
    if |s| == 0 then ""
    else (if s[0] == c then "" else [s[0]]) + RemoveChar(s[1..], c)
  }

  /** Python's `s[:n]` for a non-negative `n`. */
  function Prefix(s: string, n: nat): (r: string)
    ensures r <= s
    ensures |r| == if n < |s| then n else |s|
  {
    if n < |s| then s[..n] else s
  }

  /** Python's `str(n)` for a natural number. */
  function NatToString(n: nat): (r: string)
    ensures |r| >= 1
    ensures forall i :: 0 <= i < |r| ==> '0' <= r[i] <= '9'
    decreases n
  {
    var d := ['0' + (n % 10) as char];
    if n < 10 then d else NatToString(n / 10) + d
  }

  /** The first piece of `Split` is everything before the first occurrence of the separator. */
  lemma SplitHead(s: string, sep: string)
    requires |sep| > 0
    ensures IndexOf(s, sep).None? ==> Split(s, sep)[0] == s
    ensures IndexOf(s, sep).Some? ==> Split(s, sep)[0] == s[..IndexOf(s, sep).value]
  {
  }

  /** An occurrence inside a prefix is an occurrence in the whole string, and conversely when it fits. */
  lemma OccursInPrefix(s: string, n: nat, t: string, m: int)
    requires n <= |s|
    ensures OccursAt(s[..n], t, m) <==> OccursAt(s, t, m) && m + |t| <= n
  {
    if 0 <= m && m + |t| <= n {
      assert s[..n][m..m + |t|] == s[m..m + |t|];
    }
  }

  /** The text after the first occurrence of `t` in `s`. */
  function After(s: string, t: string): (r: string)
    requires Contains(s, t)
    ensures |r| <= |s|
  {
    s[IndexOf(s, t).value + |t|..]
  }

  /** Python's `s.split(heading)[1].split("##")[0]`, defined when `heading` occurs in `s`:
      the section text that follows the first `heading`, cut at a Markdown heading marker. */
  function SectionAfter(s: string, heading: string): (r: string)
    requires |heading| > 0 && Contains(s, heading)
  {
    Split(Split(s, heading)[1], "##")[0]
  }

  /** The section excerpt is a prefix of the text after the heading and contains no `##` marker. */
  lemma {:induction false} SectionAfterShape(s: string, heading: string)
    requires |heading| > 0 && Contains(s, heading)
    ensures SectionAfter(s, heading) <= After(s, heading)
    ensures !Contains(SectionAfter(s, heading), "##")
  {
    var rest := After(s, heading);
    var i := IndexOf(s, heading).value;
    assert Split(s, heading) == [s[..i]] + Split(rest, heading);
    var piece := Split(rest, heading)[0];
    SplitHead(rest, heading);
    SplitHead(piece, "##");
    SplitPiecesAvoidSeparator(piece, "##");
  }

  /** Cutting a string at an occurrence of `##` (or at its end) that no `##` straddles leaves the
      text before its first `##` unchanged. */
  lemma {:induction false} MarkerCutInPrefix(x: string, j: nat)
    requires j <= |x|
    requires j < |x| ==> OccursAt(x, "##", j)
    requires !OccursAt(x, "##", j - 1)
    ensures Split(x[..j], "##")[0] == Split(x, "##")[0]
  {
    var piece := x[..j];
    SplitHead(piece, "##");
    SplitHead(x, "##");
    IndexOfInPrefix(x, j, "##");
    if j == |x| {
      assert piece == x;
    } else {
      var k := IndexOf(x, "##").value;
      assert k <= j;
      if k + 2 <= j {
        assert piece[..k] == x[..k];
      } else {
        assert k == j;
      }
    }
  }

  /** The first occurrence of `t` in a prefix of `s` is its first occurrence in `s`, when that one
      fits in the prefix; otherwise there is none. */
  lemma IndexOfInPrefix(s: string, n: nat, t: string)
    requires n <= |s|
    ensures IndexOf(s[..n], t) ==
      if IndexOf(s, t).Some? && IndexOf(s, t).value + |t| <= n then IndexOf(s, t) else None
  {
    var p := s[..n];
    match IndexOf(p, t)
    case Some(m) =>
      OccursInPrefix(s, n, t, m);
      var k := IndexOf(s, t).value;
      OccursInPrefix(s, n, t, k);
    case None =>
      if IndexOf(s, t).Some? {
        var k := IndexOf(s, t).value;
        OccursInPrefix(s, n, t, k);
      }
  }

  /** When the heading starts with `##` and is never written again right after a `#`, the excerpt is
      exactly the text after the first heading up to the next `##` marker (or to the end). */
  lemma {:induction false} SectionAfterCutsAtMarker(s: string, heading: string)
    requires |heading| > 0 && Contains(s, heading) && StartsWith(heading, "##")
    requires !Contains(After(s, heading), "#" + heading)
    ensures SectionAfter(s, heading) == Split(After(s, heading), "##")[0]
  {
    var rest := After(s, heading);
    SectionAfterFirstPiece(s, heading);
    var j := HeadingCut(rest, heading);
    MarkerCutInPrefix(rest, j);
  }

  /** The excerpt is taken from the first piece of the text after the first heading. */
  lemma SectionAfterFirstPiece(s: string, heading: string)
    requires |heading| > 0 && Contains(s, heading)
    ensures SectionAfter(s, heading) == Split(Split(After(s, heading), heading)[0], "##")[0]
  {
    var i := IndexOf(s, heading).value;
    assert Split(s, heading) == [s[..i]] + Split(After(s, heading), heading);
  }

  /** The first piece of `rest` split at a `##` heading ends where a `##` marker starts (or at the
      end), and no `##` straddles that point unless `rest` writes the heading after a `#`. */
  lemma HeadingCut(rest: string, heading: string) returns (j: nat)
    requires |heading| > 0 && StartsWith(heading, "##") && !Contains(rest, "#" + heading)
    ensures j <= |rest| && Split(rest, heading)[0] == rest[..j]
    ensures j < |rest| ==> OccursAt(rest, "##", j)
    ensures !OccursAt(rest, "##", j - 1)
  {
    SplitHead(rest, heading);
    j := if IndexOf(rest, heading).Some? then IndexOf(rest, heading).value else |rest|;
    assert Split(rest, heading)[0] == rest[..j];
    if j < |rest| {
      assert rest[j..j + 2] == heading[..2];
    }
    if OccursAt(rest, "##", j - 1) {
      assert rest[j - 1..j - 1 + |"#" + heading|] == "#" + heading by {
        assert rest[j - 1] == '#';
        assert rest[j..j + |heading|] == heading;
      }
      assert OccursAt(rest, "#" + heading, j - 1);
      assert false;
    }
  }

  /** Searching for a one-character string finds the first position holding that character. */
  lemma IndexOfChar(s: string, c: char)
    ensures IndexOf(s, [c]).None? <==> c !in s
    ensures IndexOf(s, [c]).Some? ==> s[IndexOf(s, [c]).value] == c
    ensures IndexOf(s, [c]).Some? ==> forall j :: 0 <= j < IndexOf(s, [c]).value ==> s[j] != c
  {
    forall j | 0 <= j < |s| ensures OccursAt(s, [c], j) <==> s[j] == c {
      assert s[j..j + 1] == [s[j]];
    }
    if c in s {
      var j :| 0 <= j < |s| && s[j] == c;
      assert OccursAt(s, [c], j);
    }
  }

  /** Splitting at a one-character separator peels off a first line free of it. */
  lemma SplitFirstLine(x: string, c: char, y: string)
    requires c !in x
    ensures Split(x + [c] + y, [c]) == [x] + Split(y, [c])
  {
    var s := x + [c] + y;
    IndexOfChar(s, c);
    assert s[|x|] == c;
    assert IndexOf(s, [c]) == Some(|x|);
    assert s[..|x|] == x && s[|x| + 1..] == y;
  }

  /** Splitting at a one-character separator ends with a last line free of it. */
  lemma {:induction false} SplitLastLine(a: string, c: char, b: string)
    requires c !in b
    ensures Split(a + [c] + b, [c]) == Split(a, [c]) + [b]
    decreases |a|
  {
    var s := a + [c] + b;
    IndexOfChar(a, c);
    if c !in a {
      SplitFirstLine(a, c, b);
      IndexOfChar(b, c);
      assert Split(a, [c]) == [a] && Split(b, [c]) == [b];
    } else {
      var i := IndexOf(a, [c]).value;
      IndexOfSharedPrefix(a, s, c, i);
      var a' := a[i + 1..];
      assert s[..i] == a[..i];
      assert s[i + 1..] == a' + [c] + b;
      assert Split(s, [c]) == [a[..i]] + Split(a' + [c] + b, [c]);
      assert Split(a, [c]) == [a[..i]] + Split(a', [c]);
      SplitLastLine(a', c, b);
    }
  }

  /** A first occurrence of a character inside a prefix is the first occurrence in the whole string. */
  lemma IndexOfSharedPrefix(a: string, s: string, c: char, i: nat)
    requires i < |a| <= |s| && s[..|a|] == a
    requires a[i] == c && forall j :: 0 <= j < i ==> a[j] != c
    ensures IndexOf(s, [c]) == Some(i)
  {
    IndexOfChar(s, c);
    assert s[i] == c;
  }

  /** Joining three or more pieces puts the inner pieces, joined, between the first and the last. */
  lemma JoinInner(sep: string, parts: seq<string>)
    requires |parts| >= 3
    ensures Join(sep, parts) == parts[0] + sep + Join(sep, parts[1..|parts| - 1]) + sep + parts[|parts| - 1]
  {
    var n := |parts|;
    var mid, last := parts[1..n - 1], parts[n - 1];
    assert parts[1..] == mid + [last];
    JoinAppend(sep, mid, [last]);
    JoinFirst(sep, parts, Join(sep, mid) + sep + last);
  }

  lemma JoinFirst(sep: string, parts: seq<string>, rest: string)
    requires |parts| >= 2 && Join(sep, parts[1..]) == rest
    ensures Join(sep, parts) == parts[0] + sep + rest
  {
  }
}

=== FILE: VectorStore.dfy ===
/** The runbook index: an SQLite table of runbook records with embeddings, searched by exhaustive
    cosine-similarity scan. The table is modelled as its rows in rowid order together with the next
    AUTOINCREMENT value; every statement against it is a pure function from table to table. */
module VectorStore {
  import opened Wrappers
  import Lists

  /** One row of the `runbooks` table. The embedding is the model's vector for `content`. */
  datatype Record = Record(id: int, title: string, path: string, content: string, category: Option<string>, embedding: seq<real>)

  /** The table: rows in the order a plain `SELECT` returns them, and the next rowid to hand out. */
  datatype Store = Store(rows: seq<Record>, nextId: int)

  /** A row as `get_all_runbooks` returns it, without the embedding. */
  datatype Runbook = Runbook(id: int, title: string, path: string, content: string, category: Option<string>)

  /** A row as `search` returns it, with its similarity to the query. */
  datatype Hit = Hit(id: int, title: string, path: string, content: string, category: Option<string>, similarity: real)

  /** A freshly created database. */
  const Empty := Store([], 1)

  /** The table's invariants: rowids increase along the rows and stay below the next rowid,
      and `file_path` is UNIQUE. */
  ghost predicate Valid(st: Store)
  {
    && (forall i, j :: 0 <= i < j < |st.rows| ==> st.rows[i].id < st.rows[j].id)
    && 1 <= st.nextId
    && (forall i :: 0 <= i < |st.rows| ==> 1 <= st.rows[i].id < st.nextId)
    && (forall i, j :: 0 <= i < j < |st.rows| ==> st.rows[i].path != st.rows[j].path)
  }

  lemma EmptyValid()
    ensures Valid(Empty)
  {
  }

  /** The rows whose path differs from `path`, in their original order. */
  function Without(rows: seq<Record>, path: string): (r: seq<Record>)
    ensures forall x :: x in r <==> x in rows && x.path != path
  {
    Lists.Filter(rows, (x: Record) => x.path != path)
  }

  /** Removing rows keeps the invariants. */
  lemma WithoutValid(st: Store, path: string)
    requires Valid(st)
    ensures Valid(Store(Without(st.rows, path), st.nextId))
  {
    var p := (x: Record) => x.path != path;
    Lists.FilterKeepsPairwise(st.rows, p, (a: Record, b: Record) => a.id < b.id);
    Lists.FilterKeepsPairwise(st.rows, p, (a: Record, b: Record) => a.path != b.path);
    var r := Without(st.rows, path);
    forall i | 0 <= i < |r| ensures 1 <= r[i].id < st.nextId {
      assert r[i] in st.rows;
    }
  }

  /** `INSERT OR REPLACE` on the UNIQUE `file_path`: the conflicting row is deleted and the new row is
      inserted with a fresh rowid, so it comes last in rowid order. */
  function Upsert(st: Store, title: string, path: string, content: string, category: Option<string>,
                  embed: string -> seq<real>): (r: Store)
    requires Valid(st)
    ensures Valid(r)
    ensures |r.rows| > 0 && r.rows[|r.rows| - 1] == Record(st.nextId, title, path, content, category, embed(content))
    ensures forall i :: 0 <= i < |r.rows| - 1 ==> r.rows[i].path != path
    ensures forall x :: x in r.rows[..|r.rows| - 1] <==> x in st.rows && x.path != path
    ensures r.nextId == st.nextId + 1
  {
    var kept := Without(st.rows, path);
    var x := Record(st.nextId, title, path, content, category, embed(content));
    AppendValid(st, path, x);
    assert (kept + [x])[..|kept|] == kept;
    Store(kept + [x], st.nextId + 1)
  }

  /** Appending a row with the next rowid after removing its path keeps the invariants. */
  lemma AppendValid(st: Store, path: string, x: Record)
    requires Valid(st) && x.id == st.nextId && x.path == path
    ensures Valid(Store(Without(st.rows, path) + [x], st.nextId + 1))
    ensures forall i :: 0 <= i < |Without(st.rows, path)| ==> Without(st.rows, path)[i].path != path
  {
    WithoutValid(st, path);
    var kept := Without(st.rows, path);
    forall i | 0 <= i < |kept| ensures kept[i].path != path && 1 <= kept[i].id < st.nextId {
      assert kept[i] in kept;
    }
    var rows := kept + [x];
    forall i, j | 0 <= i < j < |rows| ensures rows[i].id < rows[j].id && rows[i].path != rows[j].path {
      if j < |kept| {
        assert rows[i] == kept[i] && rows[j] == kept[j];
      } else {
        assert rows[i] == kept[i];
      }
    }
  }

  /** After an upsert exactly one row carries the path: the new one. */
  lemma UpsertSinglePath(st: Store, title: string, path: string, content: string, category: Option<string>,
                         embed: string -> seq<real>)
    requires Valid(st)
    ensures var r := Upsert(st, title, path, content, category, embed);
      forall i :: 0 <= i < |r.rows| && r.rows[i].path == path ==>
        r.rows[i].title == title && r.rows[i].content == content && r.rows[i].category == category
  {
  }

  /** `DELETE FROM runbooks WHERE file_path = ?`. */
  function Delete(st: Store, path: string): (r: Store)
    requires Valid(st)
    ensures Valid(r)
    ensures forall x :: x in r.rows <==> x in st.rows && x.path != path
    ensures (forall i :: 0 <= i < |st.rows| ==> st.rows[i].path != path) ==> r == st
    ensures r.nextId == st.nextId
  {
    WithoutValid(st, path);
    if forall i :: 0 <= i < |st.rows| ==> st.rows[i].path != path then
      Lists.FilterAll(st.rows, (x: Record) => x.path != path);
      Store(Without(st.rows, path), st.nextId)
    else
      Store(Without(st.rows, path), st.nextId)
  }

  /** `DELETE FROM runbooks`: every row goes; the AUTOINCREMENT counter is kept. */
  function Clear(st: Store): (r: Store)
    requires Valid(st)
    ensures Valid(r) && r.rows == [] && r.nextId == st.nextId
  {
    Store([], st.nextId)
  }

  function Info(x: Record): Runbook
  {
    Runbook(x.id, x.title, x.path, x.content, x.category)
  }

  /** `get_all_runbooks`: every row, in rowid order, without its embedding. */
  function AllRunbooks(st: Store): (r: seq<Runbook>)
    ensures |r| == |st.rows|
    ensures forall i :: 0 <= i < |r| ==> r[i].id == st.rows[i].id && r[i].path == st.rows[i].path
    ensures forall i :: 0 <= i < |r| ==> r[i].title == st.rows[i].title && r[i].content == st.rows[i].content && r[i].category == st.rows[i].category
  {
    seq(|st.rows|, i requires 0 <= i < |st.rows| => Info(st.rows[i]))
  }

  // ----- similarity -----

  /** `sum(a * b for a, b in zip(u, v))`: `zip` stops at the shorter vector. */
  function Dot(u: seq<real>, v: seq<real>): real
    decreases |u|
  {
    if |u| == 0 || |v| == 0 then 0.0 else u[0] * v[0] + Dot(u[1..], v[1..])
  }

  predicate AllZero(v: seq<real>)
  {
    forall i :: 0 <= i < |v| ==> v[i] == 0.0
  }

  lemma {:induction false} DotSymmetric(u: seq<real>, v: seq<real>)
    ensures Dot(u, v) == Dot(v, u)
    decreases |u|
  {
    if |u| > 0 && |v| > 0 {
      DotSymmetric(u[1..], v[1..]);
    }
  }

  /** A dot product with the all-zero vector is zero; in particular its sum of squares is zero. */
  lemma {:induction false} ZeroDot(u: seq<real>, v: seq<real>)
    requires AllZero(u)
    ensures Dot(u, v) == 0.0
    decreases |u|
  {
    if |u| > 0 && |v| > 0 {
      assert AllZero(u[1..]) by {
        forall i | 0 <= i < |u[1..]| ensures u[1..][i] == 0.0 {
          assert u[1..][i] == u[i + 1];
        }
      }
      ZeroDot(u[1..], v[1..]);
    }
  }

  lemma ZeroMagnitude(v: seq<real>)
    ensures AllZero(v) ==> Dot(v, v) == 0.0
  {
    if AllZero(v) { ZeroDot(v, v); }
  }

  /** `_cosine_similarity`: the dot product over the product of the magnitudes, and exactly 0 when a
      magnitude is 0. With a square root that maps 0 to 0, an all-zero vector on either side scores 0. */
  function Cosine(u: seq<real>, v: seq<real>, sqrt: real -> real): (r: real)
    ensures sqrt(0.0) == 0.0 && (AllZero(u) || AllZero(v)) ==> r == 0.0
  {
    ZeroMagnitude(u);
    ZeroMagnitude(v);
    var m1 := sqrt(Dot(u, u));
    var m2 := sqrt(Dot(v, v));
    if m1 == 0.0 || m2 == 0.0 then 0.0 else Dot(u, v) / (m1 * m2)
  }

  lemma CosineSymmetric(u: seq<real>, v: seq<real>, sqrt: real -> real)
    ensures Cosine(u, v, sqrt) == Cosine(v, u, sqrt)
  {
    DotSymmetric(u, v);
  }

  // ----- ranked search -----

  /** The category filter of `search`: `None` and the empty string filter nothing; otherwise the SQL
      `category = ?` keeps rows whose category equals it (a NULL category never matches). */
  predicate InCategory(x: Record, category: Option<string>)
  {
    category.None? || category.value == "" || x.category == category
  }

  function Candidates(st: Store, category: Option<string>): (r: seq<Record>)
    ensures forall x :: x in r <==> x in st.rows && InCategory(x, category)
  {
    Lists.Filter(st.rows, (x: Record) => InCategory(x, category))
  }

  function Scored(rows: seq<Record>, q: seq<real>, sqrt: real -> real): (r: seq<Hit>)
    ensures |r| == |rows|
    ensures forall i :: 0 <= i < |r| ==> r[i] == Hit(rows[i].id, rows[i].title, rows[i].path, rows[i].content, rows[i].category, Cosine(q, rows[i].embedding, sqrt))
  {
    seq(|rows|, i requires 0 <= i < |rows| =>
      Hit(rows[i].id, rows[i].title, rows[i].path, rows[i].content, rows[i].category, Cosine(q, rows[i].embedding, sqrt)))
  }

  /** `a` precedes `b` in a stable descending sort of rows in rowid order: a higher similarity first,
      and on equal similarity the earlier row first. */
  predicate Before(a: Hit, b: Hit)
  {
    a.similarity > b.similarity || (a.similarity == b.similarity && a.id < b.id)
  }

  predicate Ranked(hs: seq<Hit>)
  {
    forall i, j :: 0 <= i < j < |hs| ==> Before(hs[i], hs[j])
  }

  predicate DistinctIds(hs: seq<Hit>)
  {
    forall i, j :: 0 <= i < j < |hs| ==> hs[i].id != hs[j].id
  }

  /** `Before` orders hits with distinct rowids totally and transitively. */
  lemma BeforeTotal(a: Hit, b: Hit)
    requires a.id != b.id
    ensures Before(a, b) || Before(b, a)
  {
  }

  lemma BeforeTransitive(a: Hit, b: Hit, c: Hit)
    requires Before(a, b) && Before(b, c)
    ensures Before(a, c)
  {
  }

  /** Inserts `x` into a ranked list in front of the first element it precedes. */
  function Insert(x: Hit, hs: seq<Hit>): (r: seq<Hit>)
    requires Ranked(hs)
    requires forall i :: 0 <= i < |hs| ==> hs[i].id != x.id
    ensures Ranked(r)
    ensures multiset(r) == multiset(hs) + multiset{x}
    decreases |hs|
  {
    if |hs| == 0 then [x]
    else if Before(hs[0], x) then
      var rest := Insert(x, hs[1..]);
      InsertHead(x, hs, rest);
      [hs[0]] + rest
    else
      BeforeTotal(hs[0], x);
      forall j | 0 < j < |hs| ensures Before(x, hs[j]) {
        BeforeTransitive(x, hs[0], hs[j]);
      }
      assert hs == [hs[0]] + hs[1..];
      [x] + hs
  }

  lemma InsertHead(x: Hit, hs: seq<Hit>, rest: seq<Hit>)
    requires |hs| > 0 && Ranked(hs) && Before(hs[0], x)
    requires multiset(rest) == multiset(hs[1..]) + multiset{x} && Ranked(rest)
    ensures Ranked([hs[0]] + rest)
    ensures multiset([hs[0]] + rest) == multiset(hs) + multiset{x}
  {
    assert hs == [hs[0]] + hs[1..];
    forall j | 0 <= j < |rest| ensures Before(hs[0], rest[j]) {
      assert rest[j] in multiset(rest);
      if rest[j] != x {
        assert rest[j] in multiset(hs[1..]);
        var k :| 0 <= k < |hs[1..]| && hs[1..][k] == rest[j];
        assert hs[k + 1] == rest[j];
      }
    }
    var r := [hs[0]] + rest;
    forall i, j | 0 <= i < j < |r| ensures Before(r[i], r[j]) {
      if i > 0 { assert r[i] == rest[i - 1] && r[j] == rest[j - 1]; }
      else { assert r[j] == rest[j - 1]; }
    }
  }

  /** Python's stable `sort(key=similarity, reverse=True)` on rows with distinct rowids. */
  function SortDesc(hs: seq<Hit>): (r: seq<Hit>)
    requires DistinctIds(hs)
    ensures Ranked(r)
    ensures multiset(r) == multiset(hs)
    decreases |hs|
  {
    if |hs| == 0 then []
    else
      var rest := SortDesc(hs[1..]);
      assert hs == [hs[0]] + hs[1..];
      forall i | 0 <= i < |rest| ensures rest[i].id != hs[0].id {
        assert rest[i] in multiset(hs[1..]);
        var k :| 0 <= k < |hs[1..]| && hs[1..][k] == rest[i];
        assert hs[k + 1] == rest[i];
      }
      Insert(hs[0], rest)
  }

  /** Distinct rowids in the store give distinct rowids among scored candidates. */
  lemma CandidatesDistinct(st: Store, category: Option<string>, q: seq<real>, sqrt: real -> real)
    requires Valid(st)
    ensures DistinctIds(Scored(Candidates(st, category), q, sqrt))
  {
    Lists.FilterKeepsPairwise(st.rows, (x: Record) => InCategory(x, category), (a: Record, b: Record) => a.id < b.id);
  }

  /** The ranked candidates of a query, before the `top_k` cut. */
  function Ranking(st: Store, query: string, category: Option<string>, embed: string -> seq<real>,
                   sqrt: real -> real): (r: seq<Hit>)
    requires Valid(st)
    ensures Ranked(r)
    ensures multiset(r) == multiset(Scored(Candidates(st, category), embed(query), sqrt))
  {
    CandidatesDistinct(st, category, embed(query), sqrt);
    SortDesc(Scored(Candidates(st, category), embed(query), sqrt))
  }

  /** `h` is a stored row, scored against the query vector `q`. */
  ghost predicate StoredHit(st: Store, h: Hit, q: seq<real>, sqrt: real -> real)
  {
    exists k :: 0 <= k < |st.rows| && h == Hit(st.rows[k].id, st.rows[k].title, st.rows[k].path, st.rows[k].content,
                                                st.rows[k].category, Cosine(q, st.rows[k].embedding, sqrt))
  }

  /** `search(query, top_k, category)`: filter, score every row, stable descending sort, `[:top_k]`. */
  function Search(st: Store, query: string, topK: int, category: Option<string>,
                  embed: string -> seq<real>, sqrt: real -> real): (r: seq<Hit>)
    requires Valid(st)
    ensures 0 <= topK ==> |r| == if topK < |Candidates(st, category)| then topK else |Candidates(st, category)|
    ensures topK < 0 ==> |r| == if |Candidates(st, category)| + topK < 0 then 0 else |Candidates(st, category)| + topK
    ensures Ranked(r)
    ensures category.Some? && category.value != "" ==> forall i :: 0 <= i < |r| ==> r[i].category == category
    ensures forall i :: 0 <= i < |r| ==> StoredHit(st, r[i], embed(query), sqrt)
  {
    var ranked := Ranking(st, query, category, embed, sqrt);
    var cands := Candidates(st, category);
    var scored := Scored(cands, embed(query), sqrt);
    assert |ranked| == |scored| by {
      assert |multiset(ranked)| == |multiset(scored)|;
    }
    var r := Lists.Take(ranked, topK);
    forall i | 0 <= i < |r|
      ensures r[i] in scored
    {
      assert r[i] == ranked[i];
      assert ranked[i] in multiset(scored);
    }
    forall i | 0 <= i < |r|
      ensures category.Some? && category.value != "" ==> r[i].category == category
      ensures StoredHit(st, r[i], embed(query), sqrt)
    {
      var j :| 0 <= j < |scored| && scored[j] == r[i];
      assert cands[j] in cands;
      assert cands[j] in st.rows && InCategory(cands[j], category);
      var k :| 0 <= k < |st.rows| && st.rows[k] == cands[j];
    }
    r
  }

  /** `search` returns the best `top_k` candidates: every candidate it leaves out ranks after every
      hit it returns, and with `top_k` at least the number of candidates nothing is left out. */
  lemma SearchIsTopK(st: Store, query: string, topK: int, category: Option<string>,
                     embed: string -> seq<real>, sqrt: real -> real)
    requires Valid(st)
    ensures var r := Search(st, query, topK, category, embed, sqrt);
      var scored := Scored(Candidates(st, category), embed(query), sqrt);
      && (forall i :: 0 <= i < |r| ==> r[i] in scored)
      && (forall h :: h in scored && h !in r ==> forall i :: 0 <= i < |r| ==> Before(r[i], h))
      && (topK >= |scored| ==> multiset(r) == multiset(scored))
  {
    var ranked := Ranking(st, query, category, embed, sqrt);
    var scored := Scored(Candidates(st, category), embed(query), sqrt);
    assert Search(st, query, topK, category, embed, sqrt) == Lists.Take(ranked, topK);
    PrefixOfRanking(Lists.Take(ranked, topK), ranked, scored);
  }

  /** A prefix of a ranking of `scored` holds only scored hits and ranks before every scored hit it
      leaves out; a prefix as long as `scored` is all of it. */
  lemma PrefixOfRanking(r: seq<Hit>, ranked: seq<Hit>, scored: seq<Hit>)
    requires r <= ranked && Ranked(ranked) && multiset(ranked) == multiset(scored)
    ensures forall i :: 0 <= i < |r| ==> r[i] in scored
    ensures forall h :: h in scored && h !in r ==> forall i :: 0 <= i < |r| ==> Before(r[i], h)
    ensures |r| >= |scored| ==> multiset(r) == multiset(scored)
  {
    assert |ranked| == |scored| by {
      assert |multiset(ranked)| == |multiset(scored)|;
    }
    forall i | 0 <= i < |r|
      ensures r[i] in scored
    {
      assert r[i] == ranked[i] && ranked[i] in multiset(scored);
    }
    forall h | h in scored && h !in r
      ensures forall i :: 0 <= i < |r| ==> Before(r[i], h)
    {
      assert h in multiset(ranked);
      var m :| 0 <= m < |ranked| && ranked[m] == h;
      assert forall k :: 0 <= k < |r| ==> r[k] == ranked[k];
      assert m >= |r|;
      forall i | 0 <= i < |r| ensures Before(r[i], h) {
        assert r[i] == ranked[i];
      }
    }
    if |r| >= |scored| {
      assert r == ranked;
    }
  }

  /** With `top_k=1` and at least one candidate, `search` returns exactly one hit, and it ranks
      before every other candidate. */
  lemma SearchTopOne(st: Store, query: string, category: Option<string>,
                     embed: string -> seq<real>, sqrt: real -> real)
    requires Valid(st) && |Candidates(st, category)| > 0
    ensures var r := Search(st, query, 1, category, embed, sqrt);
      var scored := Scored(Candidates(st, category), embed(query), sqrt);
      && |r| == 1 && r[0] in scored
      && forall h :: h in scored && h != r[0] ==> Before(r[0], h)
  {
    SearchIsTopK(st, query, 1, category, embed, sqrt);
    var r := Search(st, query, 1, category, embed, sqrt);
    var scored := Scored(Candidates(st, category), embed(query), sqrt);
    forall h | h in scored && h != r[0]
      ensures Before(r[0], h)
    {
      assert h !in r;
    }
  }

  /** Rowids increase along the rows, so comparing rowids compares positions in the table. */
  lemma IdOrderIsRowOrder(st: Store, p: int, q: int)
    requires Valid(st) && 0 <= p < |st.rows| && 0 <= q < |st.rows|
    ensures st.rows[p].id < st.rows[q].id <==> p < q
  {
  }

  /** Hits are in non-increasing similarity, and hits of equal similarity keep the table's order:
      the sort is stable. */
  lemma SearchOrder(st: Store, query: string, topK: int, category: Option<string>,
                    embed: string -> seq<real>, sqrt: real -> real)
    requires Valid(st)
    ensures var r := Search(st, query, topK, category, embed, sqrt);
      && (forall i, j :: 0 <= i < j < |r| ==> r[i].similarity >= r[j].similarity)
      && (forall i, j, p, q :: 0 <= i < j < |r| && r[i].similarity == r[j].similarity
            && 0 <= p < |st.rows| && 0 <= q < |st.rows| && st.rows[p].id == r[i].id && st.rows[q].id == r[j].id
            ==> p < q)
  {
    var r := Search(st, query, topK, category, embed, sqrt);
    forall i, j, p, q | 0 <= i < j < |r| && r[i].similarity == r[j].similarity
            && 0 <= p < |st.rows| && 0 <= q < |st.rows| && st.rows[p].id == r[i].id && st.rows[q].id == r[j].id
      ensures p < q
    {
      assert Before(r[i], r[j]);
      IdOrderIsRowOrder(st, p, q);
    }
  }

  /** After `clear_all` nothing is listed and every search comes back empty. */
  lemma ClearedIsEmpty(st: Store, query: string, topK: int, category: Option<string>,
                       embed: string -> seq<real>, sqrt: real -> real)
    requires Valid(st)
    ensures AllRunbooks(Clear(st)) == []
    ensures Search(Clear(st), query, topK, category, embed, sqrt) == []
  {
    assert |Candidates(Clear(st), category)| == 0;
  }
}

=== FILE: Wrappers.dfy ===
/** Failure-compatible wrappers shared by every module of the triage model.
    `Option` stands for Python's `None`-or-value, `Result` for a value or a raised exception. */
module Wrappers {

  datatype Option<+T> = None | Some(value: T) {

    /** The value, or `default` when absent (Python's `x if x is not None else default`). */
    function GetOr(default: T): T
    {
      match this
      case Some(v) => v
      case None => default
    }
  }

  /** The kinds of exception the modelled code lets escape to its caller. */
  datatype Fault =
    | GenerationFailed   // the text-generation backend raised
    | TypeError          // iterating, indexing or hashing a value of the wrong shape
    | KeyError           // a required dictionary key is missing
    | ValidationError    // a record constructor rejected a field

  /** A computed value, or the exception that aborted the computation. */
  datatype Result<+T> = Ok(value: T) | Err(fault: Fault) {

    predicate IsFailure()
    {
      Err?
    }

    function PropagateFailure<U>(): Result<U>
      requires Err?
    {
      Err(fault)
    }

    function Extract(): T
      requires Ok?
    {
      value
    }
  }
}
